=== FILE: README.md ===
# Game of Life distributor, modelled in Dafny

This project models the engine and the turn loop of a Game-of-Life server,
`gol/distributor.go`. The files are:

- `life.dfy` (module `Life`): the rule on a toroidal board as pure functions.
  - The wrap-around read, the eight-neighbour count and the birth/survival rule.
  - One synchronous turn (`Step`) and n turns (`Iterate`).
  - The population of a board.
- `partition.dfy` (module `Partition`): how `NextStep` splits the columns among
  `Threads` workers.
- `pgm.dfy` (module `Pgm`):
  - the byte image exchanged with the I/O goroutine (255 is alive, 0 is dead, row-major);
  - the decimal image names `"<H>x<W>"` and `"<H>x<W>x<turn>"`.
- `events.dfy` (module `Events`):
  - the events sent to the observer;
  - the row-major scans that list the flipped cells and the live cells.
- `engine.dfy` (module `Engine`): the mutable state.
  - `Grid` is a class over an `array2<bool>` (`Status[x][y]`, row x, column y).
  - `World` is a class holding two grids. `NextStep` writes the next turn into
    `Grid2`, range by range, then swaps the grids.
  - The I/O helpers `initCell`, `AliveCount`, `WritePgm`, `SendCellFliped` and
    `SendFinal` are methods on `World`.
  - `Caculate`, the remote step request, is the method `Calculate`.
- `controller.dfy` (module `Controller`): the `distributor` turn loop.
  - A `select` takes a key press, a timer tick or the default branch. Which one it
    takes is not under the program's control, so the model takes it as input: a
    trace of `Choice` values.
  - `Run` is the loop as a function of that trace. Its result is the sequence of
    `Action`s sent on the channels, in order: events, image requests, the idle
    check and the close of the events channel.
  - `Distribute` is the loop over a `World`. It is proved to send exactly what
    `Run` says.
- `arith.dfy` (module `Arith`): the quotient and remainder facts the other
  modules use.

## Model

| member | source | states |
|---|---|---|
| Life.Wrap | gol/distributor.go:99-104 | An index at most one period off the grid wraps to an index on the grid. |
| Life.WrapIsRemainder | gol/distributor.go:100-101 | The wrap is the identity on the grid. It moves an index one period off the grid by one period. It equals `(i + n) % n`, the remainder the accessor computes; that operand is never negative, so Go's truncating `%` agrees. |
| Life.AliveAt | gol/distributor.go:99-104 | Defines the toroidal read: row r wraps by the height and column c by the width, for indices at most one period off the board. |
| Life.Neighbours | gol/distributor.go:107-121 | The neighbour count of a cell is at most 8. |
| Life.NeighboursIgnoreSelf | gol/distributor.go:111-117 | On a torus of at least 3 by 3, changing a cell never changes its own neighbour count: the cell itself is not counted. |
| Life.WrapMoves | gol/distributor.go:109-117 | A step of -1, 0 or +1 on a torus of period at least 3 lands on the same index only when it is 0. |
| Life.Rule | gol/distributor.go:123-136 | A cell with fewer than 2 or more than 3 live neighbours is dead next turn; one with 3 is alive; one with 2 keeps its state. |
| Life.NextCell | gol/distributor.go:107-137 | Defines the next state of one cell: the rule applied to the cell and its toroidal neighbour count. |
| Life.Step | gol/distributor.go:140-164 | Defines one synchronous turn: the board of every cell's next state, all computed from the same previous board. |
| Life.Iterate | gol/distributor.go:39-41 | Defines n turns as n steps in a row. |
| Life.RuleAtZero | gol/distributor.go:123-127 | The early return at zero live neighbours gives the answer of the rule. |
| Life.StepCells | gol/distributor.go:140-164 | Every cell of the next board is the rule applied to that cell and its neighbours on the previous board. |
| Life.IterateShift | gol/distributor.go:39-41 | One turn followed by n turns is n + 1 turns. |
| Life.Dead | gol/distributor.go:74-77 | A freshly allocated board has h rows of w columns, all dead. |
| Life.DeadPopulation | gol/distributor.go:74-77 | A freshly allocated board has no live cell. |
| Life.Population | gol/distributor.go:189-200 | Defines the live-cell count of a board: the number of true cells, row by row. |
| Life.PopulationBound | gol/distributor.go:189-200 | The live-cell count of an h by w board lies between 0 and h * w. |
| Life.SwappedInRange | gol/distributor.go:99-104 | For a cell on the board, the accessor's swapped wrap still reads a cell on the board. |
| Life.SwappedAliveCount | gol/distributor.go:189-200 | Defines the count as written: every cell (i, j) read as row `(i + w) % w`, column `(j + h) % h`. |
| Life.SwappedAliveCountCounterexample | gol/distributor.go:189-200 | The count as written reports 2 live cells for the 2-row, 1-column board whose top cell is the only live one. |
| Life.SwappedAliveCountSquare | gol/distributor.go:189-200 | On a square board, the count as written is the population. |
| Partition.Owner | gol/distributor.go:143-151 | The worker owning a column is one of the `Threads` workers. |
| Partition.RangeBounds | gol/distributor.go:143-151 | Each worker's loop starts at a non-negative column, ends below the width, and is at worst empty. |
| Partition.RangeInside | gol/distributor.go:147-155 | Every column a worker visits is a column of the grid. |
| Partition.OwnerExact | gol/distributor.go:143-151 | A column lies in worker i's range exactly when i is its owner. This holds also when there are more workers than columns. |
| Partition.Disjoint | gol/distributor.go:143-151 | No column belongs to two ranges. |
| Partition.Covered | gol/distributor.go:143-151 | Every column belongs to some range. |
| Partition.TenOnThree | gol/distributor.go:143-151 | Ten columns on three workers give the ranges 0..2, 3..5 and 6..9; the last worker takes the remainder. |
| Pgm.DecodeCell | gol/distributor.go:183 | Defines the byte read: only 255 is a live cell. |
| Pgm.EncodeCell | gol/distributor.go:262-266 | A written byte is 255 or 0 and reads back as the same cell. |
| Pgm.Encode | gol/distributor.go:260-268 | Defines the image of a board: the bytes of its rows, row after row. |
| Pgm.SwappedEncode | gol/distributor.go:257-269 | Defines the snapshot as written: every cell (i, j) read through the accessor, as row `(i + w) % w`, column `(j + h) % h`. |
| Pgm.SwappedEncodeCounterexample | gol/distributor.go:257-269 | The snapshot as written of the 2-row, 1-column board whose top cell is the only live one is 255, 255, while the board's image is 255, 0. |
| Pgm.SwappedEncodeSquare | gol/distributor.go:257-269 | On a square board, the snapshot as written is the board's image. |
| Pgm.Decode | gol/distributor.go:180-185 | Reading h * w bytes gives a board of h rows of w columns. |
| Pgm.EncodeLength | gol/distributor.go:260-268 | An h by w board is written as h * w bytes. |
| Pgm.EncodeAt | gol/distributor.go:260-268 | Cell (i, j) is written at offset i * w + j. |
| Pgm.EncodeLayout | gol/distributor.go:260-268 | Every cell (i, j) is written at offset i * w + j. |
| Pgm.DecodeEncode | gol/distributor.go:177-187 | Reading back a written snapshot gives the board. |
| Pgm.EncodeDecode | gol/distributor.go:257-269 | Writing a board that was read gives back the image, when every byte of it is 0 or 255. |
| Pgm.Itoa | gol/distributor.go:167-174 | Defines the decimal text of any integer, as `strconv.Itoa` writes it: a `-` before the digits of a negative number, no sign otherwise. |
| Pgm.NatString | gol/distributor.go:168 | Decimal text is made of digits only, with no leading zero. |
| Pgm.AtoiItoa | gol/distributor.go:168 | Parsing the decimal text of an integer gives that integer back. |
| Pgm.ItoaNoX | gol/distributor.go:173 | Decimal text never contains the separator `x`. |
| Pgm.ImageName1 | gol/distributor.go:167-169 | Defines the input name: the decimal height, `x`, the decimal width. |
| Pgm.ImageName2 | gol/distributor.go:172-174 | Defines the snapshot name: the decimal height, width and turn, separated by `x`. |
| Pgm.ImageName2Injective | gol/distributor.go:172-174 | A snapshot name determines the height, the width and the turn, so snapshots of different turns get different names. |
| Pgm.ImageName2Extends | gol/distributor.go:166-174 | A snapshot name is the input name followed by `x<turn>`. |
| Events.DiffCells | gol/distributor.go:275-287 | Defines the scan of the first n rows: for each row in turn, the cells whose state differs between the two boards, by increasing column. |
| Events.Flips | gol/distributor.go:275-287 | Defines the flip events: one CellFlipped event per cell the scan lists, in its order, tagged with the turn. |
| Events.DiffRowExact | gol/distributor.go:277-285 | The scan of one row lists exactly the columns that changed, in increasing order. |
| Events.DiffCellsExact | gol/distributor.go:275-287 | The scan of the first n rows lists exactly the cells among them that changed, in row-major order. |
| Events.FlipsNext | gol/distributor.go:277-284 | Each column of the scan appends one CellFlipped event exactly when its cell changed. |
| Events.FlipsExact | gol/distributor.go:275-287 | Every flip event carries the given turn. A cell is flipped exactly when it is on the board and differs between the two boards. The flips come in row-major order. |
| Events.AliveCells | gol/distributor.go:224-238 | Defines the final report's cells: the live cells of the first n rows, row-major, each as `Cell{X: column, Y: row}`. |
| Events.AliveCellsAreFirstFlips | gol/distributor.go:299-304 | The cells that differ from the all-dead board are the live cells, so the flips sent at turn 0 are exactly the initially live cells. |
| Events.AliveCellsExact | gol/distributor.go:224-238 | The final report lists exactly the live cells, each once, in row-major order. |
| Events.AliveCellsLength | gol/distributor.go:224-238 | The final report has as many cells as the board has live cells. |
| Engine.Grid.constructor | gol/distributor.go:69-80 | A new grid has the given width, height and thread count, and all its cells are dead. |
| Engine.Grid.Set | gol/distributor.go:94-96 | Writes cell (x, y) and leaves every other cell unchanged. |
| Engine.Grid.Alive | gol/distributor.go:99-104 | Requires indices no more than one period below the grid, and wrapped indices on the grid. For an index below twice its period, on any shape, it reads the one-period wrap of each index. |
| Engine.Grid.RowCountIsRow | gol/distributor.go:110-120 | The inner loop, for one row offset, counts that row's live toroidal neighbours, skipping the cell itself. |
| Engine.Grid.RowsCountIsNeighbours | gol/distributor.go:107-121 | The two loops together count exactly the eight toroidal neighbours, each once. |
| Engine.Grid.NextStatus | gol/distributor.go:107-137 | Returns the rule applied to the cell and the count its loops make. |
| Engine.World.constructor | gol/distributor.go:83-91 | A new world has the given sizes and two distinct all-dead grids. |
| Engine.World.Work | gol/distributor.go:152-159 | A worker writes the next state of every cell in its column range into Grid2, computed from Grid1 only. It leaves every other cell of Grid2 unchanged. |
| Engine.ReadsOnGrid | gol/distributor.go:99-104 | Defines the grid shapes whose neighbour reads all stay on the grid: square ones, and those with no row or no column. |
| Engine.NonSquareReadsOffGrid | gol/distributor.go:99-104 | On a non-square grid with at least one row and one column, the wrapped read of a neighbour of row 0 or column 0 leaves the grid. |
| Engine.World.NextStep | gol/distributor.go:140-164 | With at least one thread, the new Grid1 is one synchronous turn of the old Grid1: no cell saw an updated neighbour. With a negative thread count no worker runs, and the new Grid1 is the old Grid2. Either way the new Grid2 is the old Grid1. |
| Engine.World.InitCell | gol/distributor.go:177-186 | Grid1 becomes the decoded image: byte 255 is alive, any other byte dead, row-major. It requests the image named `<H>x<W>`. |
| Engine.World.AliveCount | gol/distributor.go:189-200 | Returns the population of the current board, which lies between 0 and h * w. |
| Engine.World.WritePgm | gol/distributor.go:257-269 | Sends the snapshot name `<H>x<W>x<turn>` and the encoded current board. |
| Engine.World.DiffGrid | gol/distributor.go:271-273 | True exactly when the cell differs between the current and the previous board. |
| Engine.World.SendCellFlipped | gol/distributor.go:275-287 | Sends one CellFlipped event per cell that changed, row-major, tagged with the turn. |
| Engine.World.SendRowFlipped | gol/distributor.go:277-286 | The scan of one row appends that row's flip events to those of the rows before it. |
| Engine.World.SendFinal | gol/distributor.go:224-238 | Sends FinalTurnComplete with the turn and the live cells in row-major order. |
| Engine.Calculate | gol/distributor.go:36-48 | With a non-negative thread count the world advances by the requested number of turns (none when that is negative), and Grid2 holds the board of the turn before the last; with no turn run Grid2 is unchanged. With a negative thread count the two boards swap once per turn. The reply has status 0, the same world and the requested turn count. |
| Controller.Snapshot | gol/distributor.go:257-269 | Defines what a snapshot sends: the image named `<H>x<W>x<turn>` and the bytes of the current board. |
| Controller.Shutdown | gol/distributor.go:289-293 | Defines the shutdown of `Quit` and the close at line 355: the idle check, StateChange Quitting for the turn, then the close of the events channel. |
| Controller.Finish | gol/distributor.go:344-355 | Defines the path after the loop: FinalTurnComplete with the turn and the live cells, the snapshot of the turn, then the shutdown. |
| Controller.Transition | gol/distributor.go:311-338 | Defines one select. While paused only 'p' changes anything. Otherwise 's' snapshots; 'q' snapshots and quits; 'p' pauses; a tick reports the live-cell count; the default branch steps the board, then sends the turn's flips and TurnComplete. |
| Controller.Run | gol/distributor.go:309-355 | Defines the loop over a trace. Once the turns are done and the loop is not paused, it sends the final report, the snapshot and the shutdown. On 'q' it sends the shutdown after the select's output. Otherwise it goes on with the rest of the trace. |
| Controller.Distributor | gol/distributor.go:296-356 | Defines the whole distributor: the image request, the flips of the decoded board against the dead board at turn 0, then the loop from turn 0. Its first action is the request for the image named `<H>x<W>`, and its final board has the image's size. |
| Controller.SelectQuit | gol/distributor.go:316-319 | 'q' writes a snapshot of the current turn. It then skips the final report and the final snapshot, and waits for the I/O. It sends StateChange Quitting and closes the events channel. |
| Controller.SelectSnapshot | gol/distributor.go:313-315 | 's' writes a snapshot of the current turn, and the loop goes on from the same state. |
| Controller.SelectTick | gol/distributor.go:330-331 | A tick sends AliveCellsCount with the current turn and population. It changes neither the turn nor the board. |
| Controller.SelectDefault | gol/distributor.go:332-336 | The default branch raises the turn by one and steps the board. It then sends that turn's flips, then TurnComplete for it. |
| Controller.PausedUntilResume | gol/distributor.go:320-328 | While paused, every key but 'p' is discarded. The next 'p' resumes exactly where the loop stood. |
| Controller.RunPaused | gol/distributor.go:322-328 | While paused, one read either resumes on 'p' or leaves the loop paused as it stood. |
| Controller.PauseIsNoOp | gol/distributor.go:320-328 | A pause, any keys other than 'p', and the resume send nothing. They leave the turn and the board unchanged. |
| Controller.TransitionShape | gol/distributor.go:311-338 | A select leaves the turn and the board alone, unless it takes the default branch of a running loop. The default branch advances the turn by one and the board by one step. |
| Controller.RunTurnsDone | gol/distributor.go:309-339 | A run reports TurnComplete for exactly the turns it advanced through, each once and in increasing order: the start turn + 1 up to the turn it stops at. |
| Controller.RunTurns | gol/distributor.go:309-339 | The turn never exceeds the requested number of turns. A run that completes stops exactly there. The board is always the start board advanced by the turns done. |
| Controller.TransitionTurns | gol/distributor.go:332-336 | A select reports TurnComplete for the new turn when it advances the turn, and reports no turn otherwise. |
| Controller.RunEnds | gol/distributor.go:339-355 | A completed run ends with the final report, the final snapshot, the idle check, StateChange Quitting and the close. A run quit by 'q' ends with the snapshot of its turn and the same shutdown. |
| Controller.RunCloses | gol/distributor.go:350-355 | The events channel is closed only as the very last action, and never by a run still in progress. A run that did not complete its turns never sends the final report. |
| Controller.TransitionFaithful | gol/distributor.go:311-338 | A select from the state n turns in leads to the state n or n + 1 turns in. Everything it sends agrees with the board of the turn it names. |
| Controller.DefaultFaithful | gol/distributor.go:332-336 | The default branch leads from n turns to n + 1 turns. Its flips name cells that changed in that turn. |
| Controller.ReactFaithful | gol/distributor.go:312-331 | A key or a tick keeps the turn and the board. The snapshot or count it sends is that of the current board. |
| Controller.ReportsFaithful | gol/distributor.go:344-352 | The final report, the final snapshot and the shutdown describe the board of the turn they name. |
| Controller.RunFaithful | gol/distributor.go:296-356 | Everything a run sends agrees with the board of the turn it names: counts, flips, final cells and snapshots. |
| Controller.Serve | gol/distributor.go:311-338 | One select over the World that neither quits nor pauses does exactly what `Transition` does. |
| Controller.Advance | gol/distributor.go:332-336 | The default branch over the World advances the turn by one and steps the board. It sends the flips between the old and the new board for the new turn, then TurnComplete for it. |
| Controller.AwaitResume | gol/distributor.go:320-328 | The pause loop reads keys up to and including the next 'p', which is exactly what `Run` discards while paused. |
| Controller.Open | gol/distributor.go:299-304 | The new World holds the decoded image. It sends the image request, then the flips of turn 0 against the dead Grid2. |
| Controller.Select | gol/distributor.go:311-338 | One select of the running loop over the World, with its pause. It agrees with `Run` on what it sends and where it stops. |
| Controller.Close | gol/distributor.go:344-355 | After the last turn it sends the final report, the final snapshot and the shutdown. |
| Controller.Distribute | gol/distributor.go:296-356 | The whole distributor over a World sends exactly what `Distributor` sends. It stops at the same turn and in the same way. |

## Left out

- `gol/gol.go` is not part of this model: it only creates channels and starts the I/O goroutine.
- Goroutines and the `sync.WaitGroup` in `NextStep` are run one after another.
  - The workers write disjoint column ranges of Grid2 (`Partition.Disjoint`) and only read Grid1.
  - So the order of the workers does not change the result.
- Channels are modelled as the sequence of `Action`s sent. The I/O goroutine and its replies are left out.
  - The `ioIdle` handshake is the single action `CheckIdle`.
  - The bytes of an input image are a parameter of `InitCell` and `Distribute`.
- The 2-second ticker and the choice among ready `select` cases are left to the input trace.
  - While paused, a tick or a default entry in the trace stands for nothing happening.
  - A trace that runs out before the loop ends gives the outcome `Pending`.
- Left out entirely: `fmt.Printf`, `DebugLog`, `time.Now`/`time.Since`, and the RPC plumbing around `Caculate`.
  - The argument and reply structs are kept as parameters and `RpcResponse`.
- The event types and `util.Cell` are defined in files that are not part of this model. `Events` gives them an equivalent datatype.
- `SendAliveCount`, `SendCompleteOneTurn` and `Quit` are one-line senders. Their effect is written inline in `Serve`, `Advance` and `Shutdown`.
- `Caculate` is spelled `Calculate` in the model.
- Engine.Grid.constructor, Engine.World.constructor, Pgm.Decode, Controller.Distributor, Controller.Open and Controller.Distribute: require a non-negative height and width.
  - With a negative height the source panics at `gol/distributor.go:74` (`make` with a negative length); with at least one row and a negative width it panics at line 76.
  - With no rows and a negative width the source runs to completion: every loop is empty and the image names start `0x-`. That run is not modelled.
- Integers are unbounded. No overflow is modelled, since turn counts and board sizes stay far below the 64-bit range.
- Engine.Grid.Alive: requires each index to be at least minus its period.
  - `NextStatus`, `WritePgm` and `AliveCount` never read further below the grid.
  - Further below, Go's truncating `%` can still land on the grid (an index of minus twice the period gives 0); those reads are not modelled.
  - Its ensures ties the result to the one-period wrap of each index only for an index below twice its period. Those are the only reads `NextStatus` makes.
- Engine.Grid.NextStatus: its ensures is stated against the count of its own loops (`RowsCount`).
  - That the count is the eight-neighbour count is the separate lemma `RowsCountIsNeighbours`.
  - `Work` combines the two.
- Engine.World.NextStep: requires a non-zero thread count and, when it is positive, a grid shape in `ReadsOnGrid`.
  - With zero threads the source divides by zero.
  - On a non-square grid with at least one row and one column the source's wrapped read indexes off the grid (`NonSquareReadsOffGrid`).
  - `Calculate` requires the same whenever it runs a turn.
- Controller.Serve: requires at least one thread and a grid shape in `ReadsOnGrid` for the default branch.
  - With a negative thread count the source's turn is the swap alone, so the board alternates between the two grids. `Transition` does not model that; it always steps the board.
- Controller.Advance: requires the same as `Serve`.
- Controller.Select: requires the same as `Serve` when the select takes the default branch.
- Controller.Distribute: requires the same when turns are requested and the trace holds a default entry anywhere.
  - This also excludes a run whose default entries are never reached (they come after 'q', or while paused), which the source completes.
- Controller.Transition and Controller.Distributor: a tick's count and every snapshot use the corrected `Population` and `Pgm.Encode` (see Findings).
  - On a non-square board the source differs: with 2 rows, 1 column and only the top cell alive, a tick before the first turn sends `AliveCellsCount(0, 2)`, and with no turns requested the final snapshot is 255, 255.
- Engine.World.AliveCount: reads each cell directly, where the source reads it through the swapped wrap (see Findings). The two agree on square grids (`Life.SwappedAliveCountSquare`).
- Engine.World.WritePgm: reads each cell directly, where the source reads it through the swapped wrap (see Findings). The two agree on square grids (`Pgm.SwappedEncodeSquare`).

## Findings

| source | as written | input that shows it | evidently intended | confidence | as-written member | corrected member |
|---|---|---|---|---|---|---|
| gol/distributor.go:99-104, 189-200 | `Alive` wraps the row index by `Width` and the column index by `Height`, and `AliveCount` counts through it | 2 rows, 1 column, only the top cell alive: the count reads the top cell twice and reports 2 instead of 1 | the row index wraps by the height and the column index by the width, so the count is the number of live cells | not executed | Life.SwappedAliveCountCounterexample | Engine.World.AliveCount |
| gol/distributor.go:99-104, 257-269 | `WritePgm` writes each cell through `Alive`, which wraps the row index by `Width` and the column index by `Height` | 2 rows, 1 column, only the top cell alive: the snapshot reads the top cell twice and is 255, 255 instead of 255, 0, while `SendFinal` reports only the top cell | the row index wraps by the height and the column index by the width, so the snapshot is the board's image | not executed | Pgm.SwappedEncodeCounterexample | Engine.World.WritePgm |

=== FILE: arith.dfy ===
/** Facts about products, quotients and remainders of non-negative integers
    that the solver does not find on its own. */
module Arith {

  lemma MulMono(a: int, b: int, l: int)
    requires 0 <= a <= b && l >= 0
    ensures a * l <= b * l
  {
    assert b * l == a * l + (b - a) * l;
  }

  /** k * l <= c exactly when k <= c / l. */
  lemma DivBound(c: int, l: int, k: int)
    requires c >= 0 && l > 0 && k >= 0
    ensures k * l <= c <==> k <= c / l
  {
    var q := c / l;
    assert c == q * l + c % l;
    if k <= q {
      MulMono(k, q, l);
    } else {
      MulMono(q + 1, k, l);
      assert (q + 1) * l == q * l + l;
    }
  }

  /** The quotient and remainder are the only q, r with a = q * n + r and r in [0, n). */
  lemma DivModUnique(a: int, n: int, q: int, r: int)
    requires a >= 0 && n > 0 && q >= 0 && 0 <= r < n && a == q * n + r
    ensures a / n == q && a % n == r
  {
    DivBound(a, n, q);
    DivBound(a, n, q + 1);
    assert (q + 1) * n == q * n + n;
    assert a == (a / n) * n + a % n;
  }
}

=== FILE: controller.dfy ===
/** The distributor's turn loop. Each iteration of its select takes a key
    press, a timer tick or the default branch; which one is ready is not under
    the program's control, so it is an input: a trace of Choice values. The
    loop's effect is the sequence of Actions it sends on its output channels.
    Run is the loop as a function of the trace; Distribute is the loop itself,
    over the World, proved to produce exactly what Run says. */
module Controller {
  import opened Life
  import Pgm
  import opened Events
  import Engine

  datatype Params = Params(turns: int, threads: int, imageWidth: int, imageHeight: int)

  /** What one select took: a key press, a tick of the 2-second timer, or the
      default branch. While paused only key presses are read; a tick or a
      default entry in the trace then stands for nothing happening. */
  datatype Choice = Key(key: char) | Tick | Default

  /** What the distributor sends, in the order it sends it. */
  datatype Action =
    | Emit(event: Event)                               // on the events channel
    | ReadImage(name: string)                          // ioInput command, then the file name
    | WriteImage(name: string, pixels: seq<Pgm.byte>)  // ioOutput command, the file name, then one byte per cell
    | CheckIdle                                        // ioCheckIdle command, then wait on ioIdle
    | CloseEvents                                      // close of the events channel

  /** The loop's state: the turn, the current board, and whether it is paused. */
  datatype Ctl = Ctl(turn: int, board: Board, paused: bool)

  /** What one select does: the next state, what it sends, and whether it jumps to quit. */
  datatype Reaction = Reaction(ctl: Ctl, out: seq<Action>, quit: bool)

  /** How a run stops: all the turns were done, 'q' was pressed, or the trace ended first. */
  datatype End = Completed | QuitByKey | Pending

  datatype Outcome = Outcome(ctl: Ctl, out: seq<Action>, end: End)

  predicate Fits(p: Params, s: Ctl)
  {
    IsBoard(s.board, p.imageHeight, p.imageWidth)
  }

  function Emits(es: seq<Event>): (out: seq<Action>)
    ensures |out| == |es|
  {
    seq(|es|, i requires 0 <= i < |es| => Emit(es[i]))
  }

  /** Output sent before what o sends. */
  function Prefixed(prefix: seq<Action>, o: Outcome): Outcome
  {
    Outcome(o.ctl, prefix + o.out, o.end)
  }

  /** The snapshot of the current board, named after the turn. */
  function Snapshot(p: Params, s: Ctl): Action
  {
    WriteImage(Pgm.ImageName2(p.imageHeight, p.imageWidth, s.turn), Pgm.Encode(s.board))
  }

  /** Wait for the I/O to go idle, report Quitting, close the events channel. */
  function Shutdown(turn: int): seq<Action>
  {
    [CheckIdle, Emit(StateChange(turn, Quitting)), CloseEvents]
  }

  /** After the last turn: the final report, a snapshot, then the shutdown. */
  function Finish(p: Params, s: Ctl): seq<Action>
    requires Fits(p, s)
  {
    [Emit(FinalTurnComplete(s.turn, AliveCells(s.board, p.imageHeight, p.imageWidth, p.imageHeight))),
     Snapshot(p, s)] + Shutdown(s.turn)
  }

  /** One iteration of the select, or one key read while paused. */
  function Transition(p: Params, s: Ctl, c: Choice): (r: Reaction)
    requires Fits(p, s)
    ensures Fits(p, r.ctl)
  {
    var h, w := p.imageHeight, p.imageWidth;
    if s.paused then
      Reaction(if c == Key('p') then s.(paused := false) else s, [], false)
    else
      match c
      case Key(k) =>
        if k == 's' then Reaction(s, [Snapshot(p, s)], false)
        else if k == 'q' then Reaction(s, [Snapshot(p, s)], true)
        else if k == 'p' then Reaction(s.(paused := true), [], false)
        else Reaction(s, [], false)
      case Tick =>
        Reaction(s, [Emit(AliveCellsCount(s.turn, Population(s.board)))], false)
      case Default =>
        var next := Step(s.board, h, w);
        Reaction(Ctl(s.turn + 1, next, false),
                 Emits(Flips(s.board, next, h, w, s.turn + 1)) + [Emit(TurnComplete(s.turn + 1))], false)
  }

  /** The loop from state s on the given trace. */
  function Run(p: Params, s: Ctl, trace: seq<Choice>): (o: Outcome)
    requires Fits(p, s)
    ensures Fits(p, o.ctl)
    decreases |trace|
  {
    if !s.paused && s.turn >= p.turns then Outcome(s, Finish(p, s), Completed)
    else if |trace| == 0 then Outcome(s, [], Pending)
    else
      var r := Transition(p, s, trace[0]);
      if r.quit then Outcome(r.ctl, r.out + Shutdown(r.ctl.turn), QuitByKey)
      else Prefixed(r.out, Run(p, r.ctl, trace[1..]))
  }

  /** The whole distributor: read the image, report its live cells as the
      flips of turn 0, then run the loop. */
  function Distributor(p: Params, image: seq<Pgm.byte>, trace: seq<Choice>): (o: Outcome)
    requires p.imageHeight >= 0 && p.imageWidth >= 0 && |image| == p.imageHeight * p.imageWidth
    ensures |o.out| > 0 && o.out[0] == ReadImage(Pgm.ImageName1(p.imageHeight, p.imageWidth))
    ensures Fits(p, o.ctl)
  {
    var h, w := p.imageHeight, p.imageWidth;
    var b := Pgm.Decode(image, h, w);
    Prefixed([ReadImage(Pgm.ImageName1(h, w))] + Emits(Flips(Dead(h, w), b, h, w, 0)),
             Run(p, Ctl(0, b, false), trace))
  }

  // ---------------------------------------------------------------------------
  // What the loop promises.

  // What each branch of a running select does: 'q' snapshots and quits, 's'
  // snapshots and goes on, a tick reports the count, the default branch
  // completes one more turn, and none of them but the default branch touches
  // the turn or the board.

  /** 'q' writes a snapshot of the current turn, then shuts down without a final report. */
  lemma SelectQuit(p: Params, s: Ctl, rest: seq<Choice>)
    requires Fits(p, s) && !s.paused && s.turn < p.turns
    ensures Run(p, s, [Key('q')] + rest) == Outcome(s, [Snapshot(p, s)] + Shutdown(s.turn), QuitByKey)
  {
  }

  /** 's' writes a snapshot of the current turn and the loop goes on unchanged. */
  lemma SelectSnapshot(p: Params, s: Ctl, rest: seq<Choice>)
    requires Fits(p, s) && !s.paused && s.turn < p.turns
    ensures Run(p, s, [Key('s')] + rest) == Prefixed([Snapshot(p, s)], Run(p, s, rest))
  {
    RunStep(p, s, [Key('s')] + rest);
    assert ([Key('s')] + rest)[1..] == rest;
  }

  /** A tick reports the live cells of the current turn and changes nothing. */
  lemma SelectTick(p: Params, s: Ctl, rest: seq<Choice>)
    requires Fits(p, s) && !s.paused && s.turn < p.turns
    ensures Run(p, s, [Tick] + rest) == Prefixed([Emit(AliveCellsCount(s.turn, Population(s.board)))], Run(p, s, rest))
  {
    RunStep(p, s, [Tick] + rest);
    assert ([Tick] + rest)[1..] == rest;
  }

  /** The default branch raises the turn by one, then reports the flips of
      that turn and its completion. */
  lemma SelectDefault(p: Params, s: Ctl, trace: seq<Choice>)
    requires Fits(p, s) && !s.paused && s.turn < p.turns && |trace| > 0 && trace[0] == Default
    ensures var h, w := p.imageHeight, p.imageWidth;
      var next := Step(s.board, h, w);
      Run(p, s, trace) ==
        Prefixed(Emits(Flips(s.board, next, h, w, s.turn + 1)) + [Emit(TurnComplete(s.turn + 1))],
                 Run(p, Ctl(s.turn + 1, next, false), trace[1..]))
  {
    RunStep(p, s, trace);
  }

  /** While paused, every key but 'p' is dropped, and the 'p' resumes exactly
      where the loop stood. */
  lemma {:induction false} PausedUntilResume(p: Params, s: Ctl, keys: seq<Choice>, rest: seq<Choice>)
    requires Fits(p, s) && !s.paused && Key('p') !in keys
    ensures Run(p, s.(paused := true), keys + [Key('p')] + rest) == Run(p, s, rest)
  {
    var t := keys + [Key('p')] + rest;
    if |keys| == 0 {
      assert t[0] == Key('p') && t[1..] == rest;
    } else {
      assert t[0] == keys[0] && t[1..] == keys[1..] + [Key('p')] + rest;
      PausedUntilResume(p, s, keys[1..], rest);
    }
    assert [] + Run(p, s, rest).out == Run(p, s, rest).out;
  }

  /** While paused, one read either resumes (on 'p') or leaves the loop as it stood. */
  lemma RunPaused(p: Params, s: Ctl, trace: seq<Choice>)
    requires Fits(p, s) && !s.paused && |trace| > 0
    ensures Run(p, s.(paused := true), trace) ==
      if trace[0] == Key('p') then Run(p, s, trace[1..]) else Run(p, s.(paused := true), trace[1..])
  {
    var o := if trace[0] == Key('p') then Run(p, s, trace[1..]) else Run(p, s.(paused := true), trace[1..]);
    assert [] + o.out == o.out;
  }

  /** A pause and its resume, with whatever keys were pressed between them,
      change nothing: no output, the same turn, the same board. */
  lemma PauseIsNoOp(p: Params, s: Ctl, keys: seq<Choice>, rest: seq<Choice>)
    requires Fits(p, s) && !s.paused && s.turn < p.turns && Key('p') !in keys
    ensures Run(p, s, [Key('p')] + keys + [Key('p')] + rest) == Run(p, s, rest)
  {
    var t := [Key('p')] + keys + [Key('p')] + rest;
    assert t[1..] == keys + [Key('p')] + rest;
    PausedUntilResume(p, s, keys, rest);
    assert [] + Run(p, s, rest).out == Run(p, s, rest).out;
  }

  /** A select either leaves the turn and the board alone or, in the default
      branch of a running loop, advances both by one; a quit changes nothing. */
  lemma TransitionShape(p: Params, s: Ctl, c: Choice)
    requires Fits(p, s)
    ensures var r := Transition(p, s, c);
      (r.quit ==> r.ctl == s) &&
      ((r.ctl.turn == s.turn && r.ctl.board == s.board) ||
       (!s.paused && c == Default && r.ctl == Ctl(s.turn + 1, Step(s.board, p.imageHeight, p.imageWidth), false)))
  {
  }

  /** The turn never passes the requested number of turns, a run that completes
      stops exactly there, and the board is always the start board advanced by
      the turns done. */
  lemma {:induction false} RunTurns(p: Params, s: Ctl, trace: seq<Choice>)
    requires Fits(p, s) && s.turn <= p.turns
    ensures var o := Run(p, s, trace);
      s.turn <= o.ctl.turn <= p.turns &&
      (o.end == Completed ==> o.ctl.turn == p.turns) &&
      o.ctl.board == Iterate(s.board, p.imageHeight, p.imageWidth, o.ctl.turn - s.turn)
    decreases |trace|, 1
  {
    assert Iterate(s.board, p.imageHeight, p.imageWidth, 0) == s.board;
    if (s.paused || s.turn < p.turns) && |trace| > 0 {
      TransitionShape(p, s, trace[0]);
      if !Transition(p, s, trace[0]).quit {
        StepRunTurns(p, s, trace);
      }
    }
  }

  lemma {:induction false} StepRunTurns(p: Params, s: Ctl, trace: seq<Choice>)
    requires Fits(p, s) && s.turn <= p.turns && (s.paused || s.turn < p.turns) && |trace| > 0
    requires !Transition(p, s, trace[0]).quit
    ensures var o := Run(p, s, trace);
      s.turn <= o.ctl.turn <= p.turns &&
      (o.end == Completed ==> o.ctl.turn == p.turns) &&
      o.ctl.board == Iterate(s.board, p.imageHeight, p.imageWidth, o.ctl.turn - s.turn)
    decreases |trace|, 0
  {
    var h, w := p.imageHeight, p.imageWidth;
    var r := Transition(p, s, trace[0]);
    TransitionShape(p, s, trace[0]);
    var rest := Run(p, r.ctl, trace[1..]);
    var o := Run(p, s, trace);
    assert o.ctl == rest.ctl && o.end == rest.end;
    RunTurns(p, r.ctl, trace[1..]);
    if r.ctl.turn == s.turn + 1 {
      IterateShift(s.board, h, w, rest.ctl.turn - r.ctl.turn);
      assert rest.ctl.turn - r.ctl.turn + 1 == o.ctl.turn - s.turn;
    } else {
      assert rest.ctl.turn - r.ctl.turn == o.ctl.turn - s.turn;
    }
  }

  /** The turns whose completion a sequence of actions reports, in order. */
  function TurnsDone(out: seq<Action>): seq<int>
  {
    if |out| == 0 then []
    else (if out[0].Emit? && out[0].event.TurnComplete? then [out[0].event.completedTurns] else []) + TurnsDone(out[1..])
  }

  lemma {:induction false} TurnsDoneAppend(a: seq<Action>, b: seq<Action>)
    ensures TurnsDone(a + b) == TurnsDone(a) + TurnsDone(b)
  {
    if |a| > 0 {
      assert (a + b)[0] == a[0] && (a + b)[1..] == a[1..] + b;
      TurnsDoneAppend(a[1..], b);
      var x := if a[0].Emit? && a[0].event.TurnComplete? then [a[0].event.completedTurns] else [];
      assert TurnsDone(a + b) == x + TurnsDone(a[1..] + b);
      assert x + (TurnsDone(a[1..]) + TurnsDone(b)) == (x + TurnsDone(a[1..])) + TurnsDone(b);
    } else {
      assert a + b == b;
    }
  }

  lemma {:induction false} TurnsDoneNone(out: seq<Action>)
    requires forall i :: 0 <= i < |out| ==> !(out[i].Emit? && out[i].event.TurnComplete?)
    ensures TurnsDone(out) == []
  {
    if |out| > 0 {
      TurnsDoneNone(out[1..]);
    }
  }

  /** A select reports the completion of the next turn when it advances it,
      and of no turn otherwise. */
  lemma TransitionTurns(p: Params, s: Ctl, c: Choice)
    requires Fits(p, s)
    ensures var r := Transition(p, s, c);
      (r.ctl.turn == s.turn && TurnsDone(r.out) == []) ||
      (r.ctl.turn == s.turn + 1 && !s.paused && c == Default && TurnsDone(r.out) == [s.turn + 1])
  {
    var r := Transition(p, s, c);
    if !s.paused && c == Default {
      var f := Emits(Flips(s.board, Step(s.board, p.imageHeight, p.imageWidth), p.imageHeight, p.imageWidth, s.turn + 1));
      TurnsDoneNone(f);
      TurnsDoneAppend(f, [Emit(TurnComplete(s.turn + 1))]);
    } else {
      TurnsDoneNone(r.out);
    }
  }

  /** The turns from t + 1 through u, in increasing order. */
  function TurnsFrom(t: int, u: int): (ts: seq<int>)
    ensures |ts| == if u < t then 0 else u - t
    ensures forall i :: 0 <= i < |ts| ==> ts[i] == t + 1 + i
  {
    if u <= t then [] else seq(u - t, i => t + 1 + i)
  }

  lemma TurnsFromCons(t: int, u: int)
    requires t < u
    ensures [t + 1] + TurnsFrom(t + 1, u) == TurnsFrom(t, u)
  {
    var x, y := [t + 1] + TurnsFrom(t + 1, u), TurnsFrom(t, u);
    assert |x| == |y|;
    forall i | 0 <= i < |x|
      ensures x[i] == y[i]
    {
      if i > 0 {
        assert x[i] == TurnsFrom(t + 1, u)[i - 1];
      }
    }
  }

  /** A run reports TurnComplete for every turn it advanced through, each once
      and in order: the turns after the start turn up to the one it stops at. */
  lemma {:induction false} RunTurnsDone(p: Params, s: Ctl, trace: seq<Choice>)
    requires Fits(p, s) && s.turn <= p.turns
    ensures var o := Run(p, s, trace); TurnsDone(o.out) == TurnsFrom(s.turn, o.ctl.turn)
    decreases |trace|, 1
  {
    var o := Run(p, s, trace);
    if !s.paused && s.turn >= p.turns {
      TurnsDoneNone(Finish(p, s));
    } else if |trace| == 0 {
    } else {
      var r := Transition(p, s, trace[0]);
      if r.quit {
        assert r.out == [Snapshot(p, s)] && r.ctl == s;
        TurnsDoneNone(o.out);
      } else {
        StepRunTurnsDone(p, s, trace);
      }
    }
  }

  lemma {:induction false} StepRunTurnsDone(p: Params, s: Ctl, trace: seq<Choice>)
    requires Fits(p, s) && s.turn <= p.turns && (s.paused || s.turn < p.turns) && |trace| > 0
    requires !Transition(p, s, trace[0]).quit
    ensures var o := Run(p, s, trace); TurnsDone(o.out) == TurnsFrom(s.turn, o.ctl.turn)
    decreases |trace|, 0
  {
    var r := Transition(p, s, trace[0]);
    var rest := Run(p, r.ctl, trace[1..]);
    var o := Run(p, s, trace);
    assert o.out == r.out + rest.out && o.ctl == rest.ctl;
    assert r.ctl.turn <= p.turns by {
      TransitionShape(p, s, trace[0]);
    }
    assert r.ctl.turn <= rest.ctl.turn by {
      RunTurns(p, r.ctl, trace[1..]);
    }
    assert TurnsDone(rest.out) == TurnsFrom(r.ctl.turn, rest.ctl.turn) by {
      RunTurnsDone(p, r.ctl, trace[1..]);
    }
    assert (r.ctl.turn == s.turn && TurnsDone(r.out) == []) ||
           (r.ctl.turn == s.turn + 1 && TurnsDone(r.out) == [s.turn + 1]) by {
      TransitionTurns(p, s, trace[0]);
    }
    TurnsDoneAppend(r.out, rest.out);
    TurnsFromJoin(s.turn, r.ctl.turn, rest.ctl.turn, TurnsDone(r.out));
  }

  /** The turns a select reports, followed by those from its new turn on. */
  lemma TurnsFromJoin(t: int, t': int, u: int, x: seq<int>)
    requires (t' == t && x == []) || (t' == t + 1 && x == [t + 1])
    requires t' <= u
    ensures x + TurnsFrom(t', u) == TurnsFrom(t, u)
  {
    if t' == t {
      assert x + TurnsFrom(t', u) == TurnsFrom(t', u);
    } else {
      TurnsFromCons(t, u);
    }
  }

  /** An action that closes nothing and is not the final report. */
  predicate Midway(a: Action)
  {
    a != CloseEvents && !(a.Emit? && a.event.FinalTurnComplete?)
  }

  lemma TransitionMidway(p: Params, s: Ctl, c: Choice)
    requires Fits(p, s)
    ensures forall a :: a in Transition(p, s, c).out ==> Midway(a)
  {
    var r := Transition(p, s, c);
    if !s.paused && c == Default {
      var next := Step(s.board, p.imageHeight, p.imageWidth);
      var fs := Flips(s.board, next, p.imageHeight, p.imageWidth, s.turn + 1);
      forall a | a in r.out
        ensures Midway(a)
      {
        var i :| 0 <= i < |r.out| && r.out[i] == a;
        if i < |fs| {
          assert a == Emit(fs[i]);
        }
      }
    }
  }

  lemma SuffixAfter(x: seq<Action>, y: seq<Action>, n: nat)
    requires n <= |y|
    ensures (x + y)[|x + y| - n..] == y[|y| - n..]
  {
  }

  /** How a run ends: a completed run ends with the final report, the final
      snapshot and the shutdown; a run quit by 'q' ends with the snapshot of the
      turn it stood at and the shutdown. */
  lemma {:induction false} RunEnds(p: Params, s: Ctl, trace: seq<Choice>)
    requires Fits(p, s)
    ensures var o := Run(p, s, trace);
      (o.end == Completed ==> |o.out| >= 5 && o.out[|o.out| - 5..] == Finish(p, o.ctl)) &&
      (o.end == QuitByKey ==> |o.out| >= 4 && o.out[|o.out| - 4..] == [Snapshot(p, o.ctl)] + Shutdown(o.ctl.turn))
    decreases |trace|
  {
    var o := Run(p, s, trace);
    if !s.paused && s.turn >= p.turns {
      assert o.out == Finish(p, s);
    } else if |trace| > 0 {
      var r := Transition(p, s, trace[0]);
      if r.quit {
        assert r.out == [Snapshot(p, s)] && r.ctl == s;
        assert o.out == [Snapshot(p, s)] + Shutdown(s.turn);
      } else {
        var rest := Run(p, r.ctl, trace[1..]);
        RunEnds(p, r.ctl, trace[1..]);
        assert o.out == r.out + rest.out;
        if rest.end == Completed {
          SuffixAfter(r.out, rest.out, 5);
        } else if rest.end == QuitByKey {
          SuffixAfter(r.out, rest.out, 4);
        }
      }
    }
  }

  /** Nothing but the last action closes the events channel. */
  predicate ClosedLast(out: seq<Action>)
  {
    forall i :: 0 <= i < |out| - 1 ==> out[i] != CloseEvents
  }

  lemma MidwayAppend(x: seq<Action>, y: seq<Action>)
    requires forall a :: a in x ==> Midway(a)
    ensures ClosedLast(y) ==> ClosedLast(x + y)
    ensures (forall a :: a in y ==> Midway(a)) ==> forall a :: a in x + y ==> Midway(a)
  {
    if ClosedLast(y) {
      forall i | 0 <= i < |x + y| - 1
        ensures (x + y)[i] != CloseEvents
      {
        if i < |x| {
          assert x[i] in x;
        } else {
          assert (x + y)[i] == y[i - |x|];
        }
      }
    }
  }

  /** The events channel is closed only as the very last action, and only by
      a run that has ended; the final report is sent only by a run that
      completed its turns, so a run quit by 'q' never sends it. */
  lemma {:induction false} RunCloses(p: Params, s: Ctl, trace: seq<Choice>)
    requires Fits(p, s)
    ensures var o := Run(p, s, trace);
      ClosedLast(o.out) &&
      (o.end == Pending ==> CloseEvents !in o.out) &&
      (o.end != Completed ==> forall a :: a in o.out ==> !(a.Emit? && a.event.FinalTurnComplete?))
    decreases |trace|, 1
  {
    if !s.paused && s.turn >= p.turns {
      EndsClose(p, s);
    } else if |trace| > 0 {
      var r := Transition(p, s, trace[0]);
      if r.quit {
        assert r.out == [Snapshot(p, s)];
        EndsClose(p, s);
      } else {
        StepCloses(p, s, trace);
      }
    }
  }

  /** Both endings close the events channel last; only the completed one reports. */
  lemma EndsClose(p: Params, s: Ctl)
    requires Fits(p, s)
    ensures ClosedLast(Finish(p, s))
    ensures var q := [Snapshot(p, s)] + Shutdown(s.turn);
      ClosedLast(q) && forall a :: a in q ==> !(a.Emit? && a.event.FinalTurnComplete?)
  {
    var fin := Emit(FinalTurnComplete(s.turn, AliveCells(s.board, p.imageHeight, p.imageWidth, p.imageHeight)));
    assert Finish(p, s) == [fin, Snapshot(p, s), CheckIdle, Emit(StateChange(s.turn, Quitting)), CloseEvents];
    assert [Snapshot(p, s)] + Shutdown(s.turn) == [Snapshot(p, s), CheckIdle, Emit(StateChange(s.turn, Quitting)), CloseEvents];
  }

  lemma {:induction false} StepCloses(p: Params, s: Ctl, trace: seq<Choice>)
    requires Fits(p, s) && (s.paused || s.turn < p.turns) && |trace| > 0
    requires !Transition(p, s, trace[0]).quit
    ensures var o := Run(p, s, trace);
      ClosedLast(o.out) &&
      (o.end == Pending ==> CloseEvents !in o.out) &&
      (o.end != Completed ==> forall a :: a in o.out ==> !(a.Emit? && a.event.FinalTurnComplete?))
    decreases |trace|, 0
  {
    var o := Run(p, s, trace);
    var r := Transition(p, s, trace[0]);
    TransitionMidway(p, s, trace[0]);
    var rest := Run(p, r.ctl, trace[1..]);
    RunCloses(p, r.ctl, trace[1..]);
    assert o.out == r.out + rest.out && o.end == rest.end;
    MidwayAppend(r.out, rest.out);
  }

  /** What an action reports agrees with the board of the turn it names, for
      a run that started from board b0 at turn t0: a count is that board's
      population, a final report lists that board's live cells, a flip names a
      cell that differs between that board and the one before, and a snapshot
      is named after its turn and holds that board's bytes. */
  ghost predicate Faithful(p: Params, t0: int, b0: Board, a: Action)
    requires IsBoard(b0, p.imageHeight, p.imageWidth)
  {
    var h, w := p.imageHeight, p.imageWidth;
    match a
    case Emit(e) =>
      (match e
       case AliveCellsCount(t, n) => t0 <= t && n == Population(Iterate(b0, h, w, t - t0))
       case FinalTurnComplete(t, cells) => t0 <= t && cells == AliveCells(Iterate(b0, h, w, t - t0), h, w, h)
       case CellFlipped(t, c) =>
         t0 < t && c in DiffCells(Iterate(b0, h, w, t - t0 - 1), Iterate(b0, h, w, t - t0), h, w, h)
       case _ => true)
    case WriteImage(name, px) =>
      exists t :: t0 <= t && name == Pgm.ImageName2(h, w, t) && px == Pgm.Encode(Iterate(b0, h, w, t - t0))
    case _ => true
  }

  /** The state n turns after a start from board b0 at turn t0. */
  function Stage(p: Params, t0: int, b0: Board, n: nat, paused: bool): (s: Ctl)
    requires IsBoard(b0, p.imageHeight, p.imageWidth)
    ensures Fits(p, s)
  {
    Ctl(t0 + n, Iterate(b0, p.imageHeight, p.imageWidth, n), paused)
  }

  lemma SnapFaithful(p: Params, t0: int, b0: Board, n: nat, paused: bool)
    requires IsBoard(b0, p.imageHeight, p.imageWidth)
    ensures Faithful(p, t0, b0, Snapshot(p, Stage(p, t0, b0, n, paused)))
  {
    var t := t0 + n;
    assert t - t0 == n;
    assert Snapshot(p, Stage(p, t0, b0, n, paused)).name == Pgm.ImageName2(p.imageHeight, p.imageWidth, t);
  }

  lemma CountFaithful(p: Params, t0: int, b0: Board, n: nat)
    requires IsBoard(b0, p.imageHeight, p.imageWidth)
    ensures Faithful(p, t0, b0, Emit(AliveCellsCount(t0 + n, Population(Iterate(b0, p.imageHeight, p.imageWidth, n)))))
  {
    assert t0 + n - t0 == n;
  }

  lemma FinalFaithful(p: Params, t0: int, b0: Board, n: nat)
    requires IsBoard(b0, p.imageHeight, p.imageWidth)
    ensures var h, w := p.imageHeight, p.imageWidth;
      Faithful(p, t0, b0, Emit(FinalTurnComplete(t0 + n, AliveCells(Iterate(b0, h, w, n), h, w, h))))
  {
    assert t0 + n - t0 == n;
  }

  lemma ShutdownFaithful(p: Params, t0: int, b0: Board, turn: int)
    requires IsBoard(b0, p.imageHeight, p.imageWidth)
    ensures forall a :: a in Shutdown(turn) ==> Faithful(p, t0, b0, a)
  {
  }

  /** The snapshot, the count and the final report of the state a run stands
      in are faithful, and so is the shutdown. */
  lemma ReportsFaithful(p: Params, t0: int, b0: Board, n: nat, paused: bool)
    requires IsBoard(b0, p.imageHeight, p.imageWidth)
    ensures var s := Stage(p, t0, b0, n, paused);
      Faithful(p, t0, b0, Snapshot(p, s)) &&
      Faithful(p, t0, b0, Emit(AliveCellsCount(s.turn, Population(s.board)))) &&
      (forall a :: a in Finish(p, s) ==> Faithful(p, t0, b0, a)) &&
      (forall a :: a in Shutdown(s.turn) ==> Faithful(p, t0, b0, a))
  {
    var h, w := p.imageHeight, p.imageWidth;
    var s := Stage(p, t0, b0, n, paused);
    SnapFaithful(p, t0, b0, n, paused);
    CountFaithful(p, t0, b0, n);
    FinalFaithful(p, t0, b0, n);
    ShutdownFaithful(p, t0, b0, t0 + n);
    var head := [Emit(FinalTurnComplete(s.turn, AliveCells(s.board, h, w, h))), Snapshot(p, s)];
    assert Finish(p, s) == head + Shutdown(s.turn);
    FaithfulAppend(p, t0, b0, head, Shutdown(s.turn));
  }

  lemma FlipFaithful(p: Params, t0: int, b0: Board, n: nat, c: Cell)
    requires IsBoard(b0, p.imageHeight, p.imageWidth)
    requires c in DiffCells(Iterate(b0, p.imageHeight, p.imageWidth, n), Iterate(b0, p.imageHeight, p.imageWidth, n + 1),
                            p.imageHeight, p.imageWidth, p.imageHeight)
    ensures Faithful(p, t0, b0, Emit(CellFlipped(t0 + n + 1, c)))
  {
    assert t0 + n + 1 - t0 - 1 == n && t0 + n + 1 - t0 == n + 1;
  }

  /** The flips and the completion of a default branch are faithful. */
  lemma AdvanceFaithful(p: Params, t0: int, b0: Board, n: nat)
    requires IsBoard(b0, p.imageHeight, p.imageWidth)
    ensures var h, w := p.imageHeight, p.imageWidth;
      var b := Iterate(b0, h, w, n);
      forall a :: a in Emits(Flips(b, Step(b, h, w), h, w, t0 + n + 1)) + [Emit(TurnComplete(t0 + n + 1))] ==>
        Faithful(p, t0, b0, a)
  {
    var h, w := p.imageHeight, p.imageWidth;
    var b := Iterate(b0, h, w, n);
    IterateNext(b0, h, w, n);
    var cells := DiffCells(b, Step(b, h, w), h, w, h);
    var out := Emits(Flips(b, Step(b, h, w), h, w, t0 + n + 1)) + [Emit(TurnComplete(t0 + n + 1))];
    forall a | a in out
      ensures Faithful(p, t0, b0, a)
    {
      var i :| 0 <= i < |out| && out[i] == a;
      if i < |cells| {
        assert a == Emit(CellFlipped(t0 + n + 1, cells[i])) && cells[i] in cells;
        FlipFaithful(p, t0, b0, n, cells[i]);
      }
    }
  }

  /** The default branch from the state n turns in leads to the state n + 1
      turns in, and what it sends is faithful. */
  lemma DefaultFaithful(p: Params, t0: int, b0: Board, n: nat)
    requires IsBoard(b0, p.imageHeight, p.imageWidth)
    ensures var r := Transition(p, Stage(p, t0, b0, n, false), Default);
      r.ctl == Stage(p, t0, b0, n + 1, false) && forall a :: a in r.out ==> Faithful(p, t0, b0, a)
  {
    var h, w := p.imageHeight, p.imageWidth;
    var b := Iterate(b0, h, w, n);
    IterateNext(b0, h, w, n);
    AdvanceFaithful(p, t0, b0, n);
    assert Transition(p, Stage(p, t0, b0, n, false), Default) ==
      Reaction(Stage(p, t0, b0, n + 1, false),
               Emits(Flips(b, Step(b, h, w), h, w, t0 + n + 1)) + [Emit(TurnComplete(t0 + n + 1))], false);
  }

  /** A key or a tick leaves the turn and the board alone, and what it sends is faithful. */
  lemma ReactFaithful(p: Params, t0: int, b0: Board, n: nat, c: Choice)
    requires IsBoard(b0, p.imageHeight, p.imageWidth) && c != Default
    ensures var r := Transition(p, Stage(p, t0, b0, n, false), c);
      r.ctl == Stage(p, t0, b0, n, r.ctl.paused) && forall a :: a in r.out ==> Faithful(p, t0, b0, a)
  {
    var s := Stage(p, t0, b0, n, false);
    match c
    case Key(k) =>
      if k == 's' || k == 'q' {
        assert Transition(p, s, c).out == [Snapshot(p, s)];
        SnapFaithful(p, t0, b0, n, false);
      }
    case Tick =>
      assert Transition(p, s, c).out == [Emit(AliveCellsCount(t0 + n, Population(Iterate(b0, p.imageHeight, p.imageWidth, n))))];
      CountFaithful(p, t0, b0, n);
  }

  /** A select from the state n turns in leads to the state n or n + 1 turns
      in, and everything it sends is faithful. */
  lemma TransitionFaithful(p: Params, t0: int, b0: Board, n: nat, paused: bool, c: Choice)
    requires IsBoard(b0, p.imageHeight, p.imageWidth)
    ensures var r := Transition(p, Stage(p, t0, b0, n, paused), c);
      r.ctl == Stage(p, t0, b0, n, r.ctl.paused) ||
      (!paused && c == Default && r.ctl == Stage(p, t0, b0, n + 1, false))
    ensures forall a :: a in Transition(p, Stage(p, t0, b0, n, paused), c).out ==> Faithful(p, t0, b0, a)
  {
    if !paused {
      if c == Default {
        DefaultFaithful(p, t0, b0, n);
      } else {
        ReactFaithful(p, t0, b0, n, c);
      }
    }
  }

  /** Everything a run sends agrees with the board of the turn it names. */
  lemma {:induction false} RunFaithful(p: Params, t0: int, b0: Board, n: nat, paused: bool, trace: seq<Choice>)
    requires IsBoard(b0, p.imageHeight, p.imageWidth)
    ensures forall a :: a in Run(p, Stage(p, t0, b0, n, paused), trace).out ==> Faithful(p, t0, b0, a)
    decreases |trace|, 1
  {
    var s := Stage(p, t0, b0, n, paused);
    var o := Run(p, s, trace);
    if !s.paused && s.turn >= p.turns {
      assert o.out == Finish(p, s);
      ReportsFaithful(p, t0, b0, n, paused);
    } else if |trace| > 0 {
      var r := Transition(p, s, trace[0]);
      if r.quit {
        TransitionFaithful(p, t0, b0, n, paused, trace[0]);
        assert o.out == r.out + Shutdown(s.turn);
        ReportsFaithful(p, t0, b0, n, paused);
        FaithfulAppend(p, t0, b0, r.out, Shutdown(s.turn));
      } else {
        StepFaithful(p, t0, b0, n, paused, trace);
      }
    }
  }

  lemma {:induction false} StepFaithful(p: Params, t0: int, b0: Board, n: nat, paused: bool, trace: seq<Choice>)
    requires IsBoard(b0, p.imageHeight, p.imageWidth) && |trace| > 0
    requires var s := Stage(p, t0, b0, n, paused);
      (s.paused || s.turn < p.turns) && !Transition(p, s, trace[0]).quit
    ensures var s := Stage(p, t0, b0, n, paused);
      forall a :: a in Prefixed(Transition(p, s, trace[0]).out, Run(p, Transition(p, s, trace[0]).ctl, trace[1..])).out ==>
        Faithful(p, t0, b0, a)
    decreases |trace|, 0
  {
    var s := Stage(p, t0, b0, n, paused);
    var r := Transition(p, s, trace[0]);
    TransitionFaithful(p, t0, b0, n, paused, trace[0]);
    var rest := Run(p, r.ctl, trace[1..]);
    if r.ctl == Stage(p, t0, b0, n, r.ctl.paused) {
      RunFaithful(p, t0, b0, n, r.ctl.paused, trace[1..]);
    } else {
      RunFaithful(p, t0, b0, n + 1, false, trace[1..]);
    }
    FaithfulAppend(p, t0, b0, r.out, rest.out);
  }

  lemma FaithfulAppend(p: Params, t0: int, b0: Board, x: seq<Action>, y: seq<Action>)
    requires IsBoard(b0, p.imageHeight, p.imageWidth)
    requires forall a :: a in x ==> Faithful(p, t0, b0, a)
    requires forall a :: a in y ==> Faithful(p, t0, b0, a)
    ensures forall a :: a in x + y ==> Faithful(p, t0, b0, a)
  {
  }

  // ---------------------------------------------------------------------------
  // The loop itself.

  /** One select that neither quits nor pauses: 's' writes a snapshot, another
      key does nothing, a tick reports the live-cell count, and the default
      branch advances the turn, steps the world and reports the flips and the
      completed turn. */
  method Serve(world: Engine.World, p: Params, turn: int, c: Choice) returns (turn': int, out: seq<Action>)
    requires world.Valid() && world.width == p.imageWidth && world.height == p.imageHeight && world.threads == p.threads
    requires c != Key('q') && c != Key('p')
    requires c == Default ==> p.threads >= 1 && Engine.ReadsOnGrid(p.imageWidth, p.imageHeight)
    modifies world, world.grid2.status
    ensures world.Valid()
    ensures (world.grid1 == old(world.grid1) && world.grid2 == old(world.grid2)) ||
            (world.grid1 == old(world.grid2) && world.grid2 == old(world.grid1))
    ensures Transition(p, Ctl(turn, old(world.Cells1()), false), c) == Reaction(Ctl(turn', world.Cells1(), false), out, false)
  {
    turn' := turn;
    out := [];
    match c
    case Key(op) =>
      if op == 's' {
        var n, px := world.WritePgm(turn);
        out := [WriteImage(n, px)];
      }
    case Tick =>
      var n := world.AliveCount();
      out := [Emit(AliveCellsCount(turn, n))];
    case Default =>
      TransitionDefault(p, Ctl(turn, world.Cells1(), false));
      turn', out := Advance(world, p, turn);
  }

  /** The default branch over the World: the turn advances, the world steps,
      and the new turn's flips are sent, then TurnComplete for it. */
  method Advance(world: Engine.World, p: Params, turn: int) returns (turn': int, out: seq<Action>)
    requires world.Valid() && world.width == p.imageWidth && world.height == p.imageHeight && world.threads == p.threads
    requires p.threads >= 1 && Engine.ReadsOnGrid(p.imageWidth, p.imageHeight)
    modifies world, world.grid2.status
    ensures world.Valid()
    ensures world.grid1 == old(world.grid2) && world.grid2 == old(world.grid1)
    ensures turn' == turn + 1
    ensures world.Cells1() == Step(old(world.Cells1()), p.imageHeight, p.imageWidth)
    ensures out == Emits(Flips(old(world.Cells1()), world.Cells1(), p.imageHeight, p.imageWidth, turn')) +
                   [Emit(TurnComplete(turn'))]
  {
    turn' := turn + 1;
    world.NextStep();
    var f := world.SendCellFlipped(turn');
    out := Emits(f) + [Emit(TurnComplete(turn'))];
  }

  /** The default branch of a running select, unfolded. */
  lemma TransitionDefault(p: Params, s: Ctl)
    requires Fits(p, s) && !s.paused
    ensures var h, w := p.imageHeight, p.imageWidth;
      Transition(p, s, Default) ==
        Reaction(Ctl(s.turn + 1, Step(s.board, h, w), false),
                 Emits(Flips(s.board, Step(s.board, h, w), h, w, s.turn + 1)) + [Emit(TurnComplete(s.turn + 1))], false)
  {
  }

  /** One select of a running loop that has turns left. */
  lemma RunStep(p: Params, s: Ctl, trace: seq<Choice>)
    requires Fits(p, s) && !s.paused && s.turn < p.turns && |trace| > 0
    ensures var r := Transition(p, s, trace[0]);
      Run(p, s, trace) ==
        if r.quit then Outcome(r.ctl, r.out + Shutdown(r.ctl.turn), QuitByKey)
        else Prefixed(r.out, Run(p, r.ctl, trace[1..]))
  {
  }

  lemma PrefixedJoin(a: seq<Action>, b: seq<Action>, o: Outcome)
    ensures Prefixed(a, Prefixed(b, o)) == Prefixed(a + b, o)
  {
    assert a + (b + o.out) == (a + b) + o.out;
  }

  /** While paused, keys are read until 'p' is pressed again; k' is just past
      that press. A trace that ends first leaves the run pending. */
  method AwaitResume(p: Params, ghost s: Ctl, trace: seq<Choice>, k: int) returns (k': int, resumed: bool)
    requires Fits(p, s) && !s.paused && 0 <= k <= |trace|
    ensures k <= k' <= |trace|
    ensures resumed ==> Run(p, s.(paused := true), trace[k..]) == Run(p, s, trace[k'..])
    ensures !resumed ==> Run(p, s.(paused := true), trace[k..]) == Outcome(s.(paused := true), [], Pending)
  {
    k' := k;
    while true
      invariant k <= k' <= |trace|
      invariant Run(p, s.(paused := true), trace[k..]) == Run(p, s.(paused := true), trace[k'..])
      decreases |trace| - k'
    {
      if k' == |trace| {
        return k', false;
      }
      RunPaused(p, s, trace[k'..]);
      assert trace[k'..][1..] == trace[k' + 1..];
      var key := trace[k'];
      k' := k' + 1;
      if key == Key('p') {
        return k', true;
      }
    }
  }

  /** Read the image into a new World and report its live cells as the
      flips of turn 0. */
  method Open(p: Params, image: seq<Pgm.byte>) returns (world: Engine.World, out: seq<Action>)
    requires p.imageHeight >= 0 && p.imageWidth >= 0 && |image| == p.imageHeight * p.imageWidth
    ensures fresh(world) && fresh(world.grid1.status) && fresh(world.grid2.status) && world.Valid()
    ensures world.width == p.imageWidth && world.height == p.imageHeight && world.threads == p.threads
    ensures world.Cells1() == Pgm.Decode(image, p.imageHeight, p.imageWidth)
    ensures out == [ReadImage(Pgm.ImageName1(p.imageHeight, p.imageWidth))] +
                   Emits(Flips(Dead(p.imageHeight, p.imageWidth), world.Cells1(), p.imageHeight, p.imageWidth, 0))
  {
    world := new Engine.World(p.imageWidth, p.imageHeight, p.threads);
    var name := world.InitCell(image);
    var flips := world.SendCellFlipped(0);
    out := [ReadImage(name)] + Emits(flips);
  }

  /** One select of the running loop, with its pause if it is 'p'. Either the
      run stops here (stop), with what it sent, the turn it stopped at and how,
      or it goes on from turn' and trace position k' after sending out. */
  method Select(world: Engine.World, p: Params, turn: int, trace: seq<Choice>, k: int)
    returns (turn': int, k': int, out: seq<Action>, stop: bool, end: End)
    requires world.Valid() && world.width == p.imageWidth && world.height == p.imageHeight && world.threads == p.threads
    requires 0 <= turn < p.turns && 0 <= k < |trace|
    requires trace[k] == Default ==> p.threads >= 1 && Engine.ReadsOnGrid(p.imageWidth, p.imageHeight)
    modifies world, world.grid2.status
    ensures world.Valid()
    ensures (world.grid1 == old(world.grid1) && world.grid2 == old(world.grid2)) ||
            (world.grid1 == old(world.grid2) && world.grid2 == old(world.grid1))
    ensures k < k' <= |trace| && turn <= turn'
    ensures var o := Run(p, Ctl(turn, old(world.Cells1()), false), trace[k..]);
      if stop then o.out == out && o.ctl.turn == turn' && o.end == end
      else o == Prefixed(out, Run(p, Ctl(turn', world.Cells1(), false), trace[k'..]))
  {
    ghost var s := Ctl(turn, world.Cells1(), false);
    RunStep(p, s, trace[k..]);
    assert trace[k..][1..] == trace[k + 1..];
    var c := trace[k];
    turn', k', out, stop, end := turn, k + 1, [], false, Pending;
    if c == Key('q') {
      var n, px := world.WritePgm(turn);
      // the jump to quit skips the final report and the final snapshot
      out, stop, end := [WriteImage(n, px)] + Shutdown(turn), true, QuitByKey;
    } else if c == Key('p') {
      var resumed;
      k', resumed := AwaitResume(p, s, trace, k');
      stop := !resumed;
      assert [] + Run(p, s, trace[k'..]).out == Run(p, s, trace[k'..]).out;
    } else {
      turn', out := Serve(world, p, turn, c);
    }
  }

  /** After the last turn: the final report, the final snapshot and the shutdown. */
  method Close(world: Engine.World, p: Params, turn: int) returns (out: seq<Action>)
    requires world.Valid() && world.width == p.imageWidth && world.height == p.imageHeight
    ensures out == Finish(p, Ctl(turn, world.Cells1(), false))
  {
    var fin := world.SendFinal(turn);
    var n, px := world.WritePgm(turn);
    out := [Emit(fin), WriteImage(n, px)] + Shutdown(turn);
  }

  /** The distributor over a World: its output, the turn it stopped at and how
      it stopped are those of Distributor on the same image and trace. */
  method Distribute(p: Params, image: seq<Pgm.byte>, trace: seq<Choice>) returns (out: seq<Action>, turn: int, end: End)
    requires p.imageHeight >= 0 && p.imageWidth >= 0 && |image| == p.imageHeight * p.imageWidth
    requires p.turns > 0 && Default in trace ==> p.threads >= 1 && Engine.ReadsOnGrid(p.imageWidth, p.imageHeight)
    ensures out == Distributor(p, image, trace).out
    ensures turn == Distributor(p, image, trace).ctl.turn
    ensures end == Distributor(p, image, trace).end
  {
    ghost var total := Distributor(p, image, trace);
    var world;
    world, out := Open(p, image);
    turn := 0;
    var k := 0;
    while turn < p.turns
      invariant 0 <= k <= |trace| && 0 <= turn
      invariant world.Valid() && fresh(world.grid1.status) && fresh(world.grid2.status)
      invariant world.width == p.imageWidth && world.height == p.imageHeight && world.threads == p.threads
      invariant Prefixed(out, Run(p, Ctl(turn, world.Cells1(), false), trace[k..])) == total
      decreases |trace| - k
    {
      if k == |trace| {
        assert out + [] == out;
        end := Pending;
        return;
      }
      ghost var before := out;
      var o, stop;
      turn, k, o, stop, end := Select(world, p, turn, trace, k);
      out := out + o;
      if stop {
        return;
      }
      PrefixedJoin(before, o, Run(p, Ctl(turn, world.Cells1(), false), trace[k..]));
    }
    var o := Close(world, p, turn);
    out := out + o;
    end := Completed;
  }
}

=== FILE: engine.dfy ===
/** The step engine: a grid of cells stored in place, and a world that owns two
    grids, computes a turn into the second one column range by column range,
    and swaps them. */
module Engine {
  import opened Life
  import Partition
  import Arith
  import Pgm
  import opened Events

  /** The grid shapes on which every neighbour read of a turn stays on the
      grid: square ones, and those with no cell at all, where no read is made. */
  predicate ReadsOnGrid(width: int, height: int)
  {
    width == height || width == 0 || height == 0
  }

  /** On any other shape the wrapped read of a cell's neighbour leaves the
      grid: with more columns than rows, the row above row 0 wraps (by the
      width) to row width - 1; with more rows than columns, the column left
      of column 0 wraps (by the height) to column height - 1. */
  lemma NonSquareReadsOffGrid(width: int, height: int)
    requires width > 0 && height > 0 && !ReadsOnGrid(width, height)
    ensures width > height ==> (-1 + width) % width == width - 1 >= height
    ensures height > width ==> (-1 + height) % height == height - 1 >= width
  {
    Arith.DivModUnique(width - 1, width, 0, width - 1);
    Arith.DivModUnique(height - 1, height, 0, height - 1);
  }

  /** A fixed-size grid of `height` rows of `width` columns; status[x, y] is row x, column y. */
  class Grid {
    const width: int
    const height: int
    const threads: int
    const status: array2<bool>

    ghost predicate Valid()
    {
      status.Length0 == height && status.Length1 == width
    }

    /** The cells as a board. */
    ghost function Cells(): (b: Board)
      reads status
      requires Valid()
      ensures IsBoard(b, height, width)
      ensures forall r, c :: 0 <= r < height && 0 <= c < width ==> b[r][c] == status[r, c]
    {
      seq(height, r requires 0 <= r < height reads status =>
        seq(width, c requires 0 <= c < width reads status => status[r, c]))
    }

    /** A grid of h rows of w columns, all dead. */
    constructor (w: int, h: int, t: int)
      requires w >= 0 && h >= 0
      ensures width == w && height == h && threads == t
      ensures Valid() && fresh(status)
      ensures Cells() == Dead(h, w)
    {
      width, height, threads := w, h, t;
      status := new bool[h, w]((_, _) => false);
      new;
      assert forall r :: 0 <= r < h ==> Cells()[r] == Dead(h, w)[r];
    }

    /** Writes one cell, without wrap-around. */
    method Set(x: int, y: int, v: bool)
      requires Valid() && 0 <= x < height && 0 <= y < width
      modifies status
      ensures status[x, y] == v
      ensures forall r, c :: 0 <= r < height && 0 <= c < width && (r != x || c != y) ==>
        status[r, c] == old(status[r, c])
    {
      status[x, y] := v;
    }

    /** The wrapped read, as the source writes it: the first (row) index is
        wrapped by the width and the second (column) index by the height. The
        requires admit indices at least minus their period whose wrapped
        indices lie on the grid. For an index below twice its period, the
        read is the one-period wrap of each index. */
    function Alive(x: int, y: int): (r: bool)
      reads status
      requires Valid() && width > 0 && height > 0 && x >= -width && y >= -height
      requires (x + width) % width < height && (y + height) % height < width
      ensures x < 2 * width && y < 2 * height ==>
        (WrapAgrees(x, width); WrapAgrees(y, height); r == status[Wrap(x, width), Wrap(y, height)])
    {
      WrapAgrees(x, width);
      WrapAgrees(y, height);
      status[(x + width) % width, (y + height) % height]
    }

    /** 1 when the neighbour at offset (di, dj) is counted: it is not the cell
        itself and it is alive. */
    ghost function Seen(x: int, y: int, di: int, dj: int): nat
      reads status
      requires Valid() && width == height && 0 <= x < height && 0 <= y < width
      requires -1 <= di <= 1 && -1 <= dj <= 1
    {
      if (di != 0 || dj != 0) && status[Wrap(x + di, width), Wrap(y + dj, height)] then 1 else 0
    }

    /** What the inner loop has counted in row offset di: column offsets -1 .. j - 1. */
    ghost function RowCount(x: int, y: int, di: int, j: int): nat
      reads status
      requires Valid() && width == height && 0 <= x < height && 0 <= y < width
      requires -1 <= di <= 1 && -1 <= j <= 2
      decreases j + 1
    {
      if j == -1 then 0 else RowCount(x, y, di, j - 1) + Seen(x, y, di, j - 1)
    }

    /** What the outer loop has counted: row offsets -1 .. i - 1. */
    ghost function RowsCount(x: int, y: int, i: int): nat
      reads status
      requires Valid() && width == height && 0 <= x < height && 0 <= y < width
      requires -1 <= i <= 2
      decreases i + 1
    {
      if i == -1 then 0 else RowsCount(x, y, i - 1) + RowCount(x, y, i - 1, 2)
    }

    /** One row offset of the loops reads that row's neighbours on the torus. */
    lemma RowCountIsRow(x: int, y: int, di: int)
      requires Valid() && width == height && 0 <= x < height && 0 <= y < width && -1 <= di <= 1
      ensures RowCount(x, y, di, 2) ==
        Bit(AliveAt(Cells(), height, width, x + di, y - 1)) +
        (if di != 0 then Bit(AliveAt(Cells(), height, width, x + di, y)) else 0) +
        Bit(AliveAt(Cells(), height, width, x + di, y + 1))
    {
      assert RowCount(x, y, di, 0) == Seen(x, y, di, -1);
      assert RowCount(x, y, di, 1) == RowCount(x, y, di, 0) + Seen(x, y, di, 0);
      assert RowCount(x, y, di, 2) == RowCount(x, y, di, 1) + Seen(x, y, di, 1);
    }

    /** The nested loops visit exactly the eight toroidal neighbours, each once. */
    lemma RowsCountIsNeighbours(x: int, y: int)
      requires Valid() && width == height && 0 <= x < height && 0 <= y < width
      ensures RowsCount(x, y, 2) == Neighbours(Cells(), height, width, x, y)
    {
      RowCountIsRow(x, y, -1);
      RowCountIsRow(x, y, 0);
      RowCountIsRow(x, y, 1);
      assert RowsCount(x, y, 0) == RowCount(x, y, -1, 2);
      assert RowsCount(x, y, 1) == RowsCount(x, y, 0) + RowCount(x, y, 0, 2);
    }

    /** Counts the live cells among the eight around (x, y), then applies the
        rule; the early exit at zero agrees with it. RowsCountIsNeighbours
        shows the count is the cell's neighbour count. */
    method NextStatus(x: int, y: int) returns (next: bool)
      requires Valid() && width == height && 0 <= x < height && 0 <= y < width
      ensures next == Rule(status[x, y], RowsCount(x, y, 2))
    {
      var alive := 0;
      var i := -1;
      while i <= 1
        invariant -1 <= i <= 2
        invariant alive == RowsCount(x, y, i)
      {
        var j := -1;
        while j <= 1
          invariant -1 <= j <= 2
          invariant alive == RowsCount(x, y, i) + RowCount(x, y, i, j)
        {
          if (i != 0 || j != 0) && Alive(x + i, y + j) {
            alive := alive + 1;
          }
          j := j + 1;
        }
        i := i + 1;
      }
      if alive == 0 {
        return false;
      }
      if alive == 3 {
        return true;
      }
      return alive == 2 && Alive(x, y);
    }
  }

  /** The whole world: grid1 holds the current turn, grid2 the previous one
      (and is the scratch space the next turn is written into). */
  class World {
    var grid1: Grid
    var grid2: Grid
    const width: int
    const height: int
    const threads: int

    ghost predicate Valid()
      reads this
    {
      grid1.Valid() && grid2.Valid() && grid1.status != grid2.status &&
      grid1.width == width && grid1.height == height &&
      grid2.width == width && grid2.height == height
    }

    /** The current board. */
    ghost function Cells1(): (b: Board)
      reads this, grid1.status
      requires Valid()
      ensures IsBoard(b, height, width)
    {
      grid1.Cells()
    }

    /** The previous board. */
    ghost function Cells2(): (b: Board)
      reads this, grid2.status
      requires Valid()
      ensures IsBoard(b, height, width)
    {
      grid2.Cells()
    }

    /** Two all-dead grids of h rows of w columns. */
    constructor (w: int, h: int, t: int)
      requires w >= 0 && h >= 0
      ensures Valid() && width == w && height == h && threads == t
      ensures fresh(grid1.status) && fresh(grid2.status)
      ensures Cells1() == Dead(h, w) && Cells2() == Dead(h, w)
    {
      height, width, threads := h, w, t;
      grid1 := new Grid(w, h, t);
      grid2 := new Grid(w, h, t);
    }

    /** One worker: rows 0 .. height - 1, columns start .. end, written into grid2
        from grid1 only. */
    method Work(start: int, end: int)
      requires Valid() && ReadsOnGrid(width, height) && 0 <= start <= end + 1 && end < width
      modifies grid2.status
      ensures forall r, c :: 0 <= r < height && 0 <= c < width ==>
        grid2.status[r, c] == if start <= c <= end then NextCell(Cells1(), height, width, r, c)
                              else old(grid2.status[r, c])
    {
      ghost var b := Cells1();
      var x := 0;
      while x < height
        invariant 0 <= x <= height
        invariant Cells1() == b
        invariant forall r, c :: 0 <= r < height && 0 <= c < width ==>
          grid2.status[r, c] == if r < x && start <= c <= end then NextCell(b, height, width, r, c)
                                else old(grid2.status[r, c])
      {
        var y := start;
        while y <= end
          invariant start <= y <= end + 1
          invariant Cells1() == b
          invariant forall r, c :: 0 <= r < height && 0 <= c < width ==>
            grid2.status[r, c] == if (r < x && start <= c <= end) || (r == x && start <= c < y)
                                  then NextCell(b, height, width, r, c)
                                  else old(grid2.status[r, c])
        {
          var v := grid1.NextStatus(x, y);
          grid1.RowsCountIsNeighbours(x, y);
          grid2.Set(x, y, v);
          y := y + 1;
        }
        x := x + 1;
      }
    }

    /** One turn: each of the `threads` column ranges is computed from the
        current grid into the scratch grid, then the two are swapped. Every
        cell of the new grid is the rule applied to the old one, so no cell
        saw an updated neighbour; the old grid becomes the scratch grid. With
        a negative thread count no range is computed and the turn is the swap
        alone; zero threads divide by zero. */
    method NextStep()
      requires Valid() && threads != 0 && (threads > 0 ==> ReadsOnGrid(width, height))
      modifies this, grid2.status
      ensures Valid()
      ensures grid1 == old(grid2) && grid2 == old(grid1)
      ensures threads > 0 ==> Cells1() == Step(old(Cells1()), height, width)
      ensures threads < 0 ==> Cells1() == old(Cells2())
      ensures Cells2() == old(Cells1())
    {
      ghost var b := Cells1();
      // width >= 0, so the truncating quotient of the source is Dafny's
      var length := width / threads;
      var i := 0;
      while i < threads
        invariant 0 <= i && (threads > 0 ==> i <= threads)
        invariant Valid() && grid1 == old(grid1) && grid2 == old(grid2)
        invariant Cells1() == b
        invariant threads < 0 ==> Cells2() == old(Cells2())
        invariant threads > 0 ==> forall r, c :: 0 <= r < height && 0 <= c < width && Partition.Owner(c, width, threads) < i ==>
          grid2.status[r, c] == NextCell(b, height, width, r, c)
      {
        var start := i * length;
        var end := start + length - 1;
        if i == threads - 1 {
          end := width - 1;
        }
        Partition.RangeBounds(i, width, threads);
        forall c | 0 <= c < width {
          Partition.OwnerExact(i, c, width, threads);
        }
        Work(start, end);
        i := i + 1;
      }
      grid1, grid2 := grid2, grid1;
      if threads > 0 {
        StepCells(b, height, width);
        forall r | 0 <= r < height
          ensures Cells1()[r] == Step(b, height, width)[r]
        {
          assert forall c :: 0 <= c < width ==> Cells1()[r][c] == Step(b, height, width)[r][c];
        }
      }
    }

    /** Fills grid1 from the input image, reading its h * w bytes row after row;
        only the byte 255 makes a live cell. Returns the name the image is
        requested under. */
    method InitCell(bytes: seq<Pgm.byte>) returns (name: string)
      requires Valid() && |bytes| == height * width
      modifies grid1.status
      ensures name == Pgm.ImageName1(height, width)
      ensures Cells1() == Pgm.Decode(bytes, height, width)
    {
      name := Pgm.ImageName1(height, width);
      ghost var d := Pgm.Decode(bytes, height, width);
      var i := 0;
      while i < height
        invariant 0 <= i <= height
        invariant forall r, c :: 0 <= r < i && 0 <= c < width ==> grid1.status[r, c] == d[r][c]
      {
        var j := 0;
        while j < width
          invariant 0 <= j <= width
          invariant forall r, c :: 0 <= r < height && 0 <= c < width && (r < i || (r == i && c < j)) ==>
            grid1.status[r, c] == d[r][c]
        {
          // the (i * width + j)-th byte of the stream
          Pgm.IndexBound(i, j, height, width);
          var tmp := bytes[i * width + j];
          grid1.Set(i, j, tmp == 255);
          j := j + 1;
        }
        i := i + 1;
      }
      forall r | 0 <= r < height
        ensures Cells1()[r] == d[r]
      {
        assert forall c :: 0 <= c < width ==> Cells1()[r][c] == d[r][c];
      }
    }

    /** Number of live cells of the current board, scanned row-major. */
    method AliveCount() returns (count: int)
      requires Valid()
      ensures count == Population(Cells1())
      ensures 0 <= count <= height * width
    {
      ghost var b := Cells1();
      count := 0;
      var i := 0;
      while i < height
        invariant 0 <= i <= height
        invariant count == Population(b[..i])
      {
        var j := 0;
        while j < width
          invariant 0 <= j <= width
          invariant count == Population(b[..i]) + RowPopulation(b[i][..j])
        {
          if grid1.status[i, j] {
            count := count + 1;
          }
          assert b[i][..j + 1][..j] == b[i][..j];
          j := j + 1;
        }
        assert b[..i + 1][..i] == b[..i];
        assert b[i][..width] == b[i];
        i := i + 1;
      }
      assert b[..height] == b;
      PopulationBound(b, height, width);
    }

    /** The snapshot written for a turn: its name, and one byte per cell row
        after row, 255 for live and 0 for dead. */
    method WritePgm(turn: int) returns (name: string, pixels: seq<Pgm.byte>)
      requires Valid()
      ensures name == Pgm.ImageName2(height, width, turn)
      ensures pixels == Pgm.Encode(Cells1())
    {
      ghost var b := Cells1();
      name := Pgm.ImageName2(height, width, turn);
      pixels := [];
      var i := 0;
      while i < height
        invariant 0 <= i <= height
        invariant pixels == Pgm.Encode(b[..i])
      {
        var j := 0;
        while j < width
          invariant 0 <= j <= width
          invariant pixels == Pgm.Encode(b[..i]) + Pgm.EncodeRow(b[i][..j])
        {
          if grid1.status[i, j] {
            pixels := pixels + [255];
          } else {
            pixels := pixels + [0];
          }
          Pgm.EncodeRowSnoc(b[i], j);
          j := j + 1;
        }
        Pgm.EncodeSnoc(b, i);
        assert b[i][..width] == b[i];
        i := i + 1;
      }
      assert b[..height] == b;
    }

    /** Whether the cell in row y, column x changed from the previous board to the current one. */
    function DiffGrid(y: int, x: int): (d: bool)
      reads this, grid1.status, grid2.status
      requires Valid() && 0 <= y < height && 0 <= x < width
      ensures d <==> Cells1()[y][x] != Cells2()[y][x]
    {
      grid1.status[y, x] != grid2.status[y, x]
    }

    /** One CellFlipped event for every cell that changed, row-major, tagged with the turn. */
    method SendCellFlipped(turn: int) returns (events: seq<Event>)
      requires Valid()
      ensures events == Flips(Cells2(), Cells1(), height, width, turn)
    {
      events := [];
      var y := 0;
      while y < height
        invariant 0 <= y <= height
        invariant events == FlipEvents(DiffCells(Cells2(), Cells1(), height, width, y), turn)
      {
        events := SendRowFlipped(turn, y, events);
        y := y + 1;
      }
    }

    /** The scan of row y, appended to the events of the rows before it. */
    method SendRowFlipped(turn: int, y: int, before: seq<Event>) returns (events: seq<Event>)
      requires Valid() && 0 <= y < height
      requires before == FlipEvents(DiffCells(Cells2(), Cells1(), height, width, y), turn)
      ensures events == FlipEvents(DiffCells(Cells2(), Cells1(), height, width, y + 1), turn)
    {
      ghost var prev, cur := Cells2(), Cells1();
      FlipsRowDone(prev, cur, height, width, y, turn);
      events := before;
      var x := 0;
      while x < width
        invariant 0 <= x <= width
        invariant events == FlipsBefore(prev, cur, height, width, y, x, turn)
      {
        if DiffGrid(y, x) {
          events := events + [CellFlipped(turn, Cell(x, y))];
        }
        FlipsNext(prev, cur, height, width, y, x, turn);
        x := x + 1;
      }
    }

    /** The final report: the turn and every live cell, row-major. */
    method SendFinal(turn: int) returns (event: Event)
      requires Valid()
      ensures event == FinalTurnComplete(turn, AliveCells(Cells1(), height, width, height))
    {
      ghost var b := Cells1();
      var alive: seq<Cell> := [];
      var y := 0;
      while y < height
        invariant 0 <= y <= height
        invariant alive == AliveCells(b, height, width, y)
      {
        var x := 0;
        while x < width
          invariant 0 <= x <= width
          invariant alive == AliveCells(b, height, width, y) + AliveRow(b[y], y, x)
        {
          if grid1.status[y, x] {
            alive := alive + [Cell(x, y)];
          }
          x := x + 1;
        }
        y := y + 1;
      }
      event := FinalTurnComplete(turn, alive);
    }
  }

  /** The reply of a remote step request. */
  datatype RpcResponse = RpcResponse(rpcStatus: int, world: World, turn: int)

  /** Runs `turns` steps on the world and answers with status 0 and the same
      turn count; the second grid is left holding the board of the turn
      before the last. With a negative thread count each step is only the
      swap, so the world alternates between its two boards. */
  method Calculate(world: World, turns: int) returns (resp: RpcResponse)
    requires world.Valid()
    requires turns > 0 ==> world.threads != 0 && (world.threads > 0 ==> ReadsOnGrid(world.width, world.height))
    modifies world, world.grid1.status, world.grid2.status
    ensures world.Valid()
    ensures world.threads >= 0 ==>
      world.Cells1() == Iterate(old(world.Cells1()), world.height, world.width, if turns < 0 then 0 else turns)
    ensures world.threads < 0 ==>
      world.Cells1() == if turns > 0 && turns % 2 == 1 then old(world.Cells2()) else old(world.Cells1())
    ensures world.threads >= 0 && turns > 0 ==>
      world.Cells2() == Iterate(old(world.Cells1()), world.height, world.width, turns - 1)
    ensures turns <= 0 ==> world.Cells2() == old(world.Cells2())
    ensures world.threads < 0 ==>
      world.Cells2() == if turns > 0 && turns % 2 == 1 then old(world.Cells1()) else old(world.Cells2())
    ensures resp == RpcResponse(0, world, turns)
  {
    ghost var b, b2 := world.Cells1(), world.Cells2();
    ghost var arrays := {world.grid1.status, world.grid2.status};
    var i := 0;
    while i < turns
      invariant 0 <= i <= if turns < 0 then 0 else turns
      invariant world.Valid()
      invariant {world.grid1.status, world.grid2.status} == arrays
      invariant world.threads >= 0 ==> world.Cells1() == Iterate(b, world.height, world.width, i)
      invariant world.threads < 0 ==> world.Cells1() == (if i % 2 == 1 then b2 else b)
      invariant world.threads < 0 ==> world.Cells2() == (if i % 2 == 1 then b else b2)
      invariant world.threads >= 0 && i > 0 ==> world.Cells2() == Iterate(b, world.height, world.width, i - 1)
      invariant i == 0 ==> world.Cells2() == b2
    {
      world.NextStep();
      i := i + 1;
    }
    resp := RpcResponse(0, world, turns);
  }
}

=== FILE: events.dfy ===
/** The events the distributor sends to the observer, and the row-major scans
    over the board that produce the flipped and the live cells. */
module Events {
  import opened Life

  /** A cell by column x and row y. */
  datatype Cell = Cell(x: int, y: int)

  datatype State = Paused | Executing | Quitting

  datatype Event =
    | TurnComplete(completedTurns: int)
    | CellFlipped(completedTurns: int, cell: Cell)
    | AliveCellsCount(completedTurns: int, cellsCount: int)
    | FinalTurnComplete(completedTurns: int, alive: seq<Cell>)
    | StateChange(completedTurns: int, newState: State)

  /** a comes before b in a scan that runs over rows, and over columns within a row. */
  predicate Before(a: Cell, b: Cell)
  {
    a.y < b.y || (a.y == b.y && a.x < b.x)
  }

  /** Strictly increasing in row-major order (so also free of repetitions). */
  predicate RowMajor(cs: seq<Cell>)
  {
    forall i, j :: 0 <= i < j < |cs| ==> Before(cs[i], cs[j])
  }

  // ---------------------------------------------------------------------------
  // Cells whose state differs between two boards.

  /** Columns 0 .. m - 1 of row y where prev and cur differ. */
  function DiffRow(prev: seq<bool>, cur: seq<bool>, y: int, m: int): seq<Cell>
    requires 0 <= m <= |prev| && m <= |cur|
  {
    if m == 0 then []
    else DiffRow(prev, cur, y, m - 1) + (if prev[m - 1] != cur[m - 1] then [Cell(m - 1, y)] else [])
  }

  /** Rows 0 .. n - 1 of the cells where prev and cur differ, in row-major order. */
  function DiffCells(prev: Board, cur: Board, h: int, w: int, n: int): seq<Cell>
    requires IsBoard(prev, h, w) && IsBoard(cur, h, w) && 0 <= n <= h
  {
    if n == 0 then [] else DiffCells(prev, cur, h, w, n - 1) + DiffRow(prev[n - 1], cur[n - 1], n - 1, w)
  }

  /** One CellFlipped event per cell, tagged with the turn. */
  function FlipEvents(cells: seq<Cell>, turn: int): (es: seq<Event>)
    ensures |es| == |cells|
  {
    seq(|cells|, i requires 0 <= i < |cells| => CellFlipped(turn, cells[i]))
  }

  /** The events a row-major scan has sent once it reaches column x of row y. */
  function FlipsBefore(prev: Board, cur: Board, h: int, w: int, y: int, x: int, turn: int): seq<Event>
    requires IsBoard(prev, h, w) && IsBoard(cur, h, w) && 0 <= y < h && 0 <= x <= w
  {
    FlipEvents(DiffCells(prev, cur, h, w, y) + DiffRow(prev[y], cur[y], y, x), turn)
  }

  /** The scan's next column adds the event of that column, when it changed. */
  lemma FlipsNext(prev: Board, cur: Board, h: int, w: int, y: int, x: int, turn: int)
    requires IsBoard(prev, h, w) && IsBoard(cur, h, w) && 0 <= y < h && 0 <= x < w
    ensures FlipsBefore(prev, cur, h, w, y, x + 1, turn) ==
      FlipsBefore(prev, cur, h, w, y, x, turn) + (if prev[y][x] != cur[y][x] then [CellFlipped(turn, Cell(x, y))] else [])
  {
    var a, r := DiffCells(prev, cur, h, w, y), DiffRow(prev[y], cur[y], y, x);
    if prev[y][x] != cur[y][x] {
      assert a + (r + [Cell(x, y)]) == (a + r) + [Cell(x, y)];
    } else {
      assert r + [] == r;
    }
  }

  /** At the end of a row the scan has sent the events of the rows up to it. */
  lemma FlipsRowDone(prev: Board, cur: Board, h: int, w: int, y: int, turn: int)
    requires IsBoard(prev, h, w) && IsBoard(cur, h, w) && 0 <= y < h
    ensures FlipsBefore(prev, cur, h, w, y, w, turn) == FlipEvents(DiffCells(prev, cur, h, w, y + 1), turn)
    ensures FlipsBefore(prev, cur, h, w, y, 0, turn) == FlipEvents(DiffCells(prev, cur, h, w, y), turn)
  {
    assert DiffCells(prev, cur, h, w, y) + [] == DiffCells(prev, cur, h, w, y);
  }

  /** The CellFlipped events of one turn: every cell of cur that differs from prev. */
  function Flips(prev: Board, cur: Board, h: int, w: int, turn: int): seq<Event>
    requires IsBoard(prev, h, w) && IsBoard(cur, h, w)
  {
    FlipEvents(DiffCells(prev, cur, h, w, h), turn)
  }

  lemma {:induction false} DiffRowExact(prev: seq<bool>, cur: seq<bool>, y: int, m: int)
    requires 0 <= m <= |prev| && m <= |cur|
    ensures forall c :: c in DiffRow(prev, cur, y, m) <==> c.y == y && 0 <= c.x < m && prev[c.x] != cur[c.x]
    ensures RowMajor(DiffRow(prev, cur, y, m))
  {
    if m > 0 {
      DiffRowExact(prev, cur, y, m - 1);
    }
  }

  /** A cell is listed exactly when it lies in the first n rows and differs. */
  lemma {:induction false} DiffCellsExact(prev: Board, cur: Board, h: int, w: int, n: int)
    requires IsBoard(prev, h, w) && IsBoard(cur, h, w) && 0 <= n <= h
    ensures forall c :: c in DiffCells(prev, cur, h, w, n) <==>
      0 <= c.y < n && 0 <= c.x < w && prev[c.y][c.x] != cur[c.y][c.x]
    ensures RowMajor(DiffCells(prev, cur, h, w, n))
  {
    if n > 0 {
      DiffCellsExact(prev, cur, h, w, n - 1);
      DiffRowExact(prev[n - 1], cur[n - 1], n - 1, w);
      RowMajorJoin(DiffCells(prev, cur, h, w, n - 1), DiffRow(prev[n - 1], cur[n - 1], n - 1, w), n - 1);
    }
  }

  /** Rows before row y, followed by cells of row y, stay in row-major order. */
  lemma RowMajorJoin(a: seq<Cell>, b: seq<Cell>, y: int)
    requires RowMajor(a) && RowMajor(b)
    requires forall c :: c in a ==> c.y < y
    requires forall c :: c in b ==> c.y == y
    ensures RowMajor(a + b)
  {
    forall i, j | 0 <= i < j < |a + b|
      ensures Before((a + b)[i], (a + b)[j])
    {
      if j < |a| {
        assert (a + b)[i] == a[i] && (a + b)[j] == a[j];
      } else if i < |a| {
        assert a[i] in a && b[j - |a|] in b;
      } else {
        assert (a + b)[i] == b[i - |a|] && (a + b)[j] == b[j - |a|];
      }
    }
  }

  /** The flip events of a turn name exactly the cells that changed, each once,
      in row-major order, all tagged with that turn. */
  lemma FlipsExact(prev: Board, cur: Board, h: int, w: int, turn: int)
    requires IsBoard(prev, h, w) && IsBoard(cur, h, w)
    ensures forall e :: e in Flips(prev, cur, h, w, turn) ==> e.CellFlipped? && e.completedTurns == turn
    ensures forall x, y :: CellFlipped(turn, Cell(x, y)) in Flips(prev, cur, h, w, turn) <==>
      0 <= y < h && 0 <= x < w && prev[y][x] != cur[y][x]
    ensures RowMajor(DiffCells(prev, cur, h, w, h))
  {
    var cells := DiffCells(prev, cur, h, w, h);
    DiffCellsExact(prev, cur, h, w, h);
    forall x, y
      ensures CellFlipped(turn, Cell(x, y)) in Flips(prev, cur, h, w, turn) <==> Cell(x, y) in cells
    {
      if Cell(x, y) in cells {
        var i :| 0 <= i < |cells| && cells[i] == Cell(x, y);
        assert Flips(prev, cur, h, w, turn)[i] == CellFlipped(turn, Cell(x, y));
      }
    }
  }

  // ---------------------------------------------------------------------------
  // Live cells.

  /** Columns 0 .. m - 1 of row y that are alive. */
  function AliveRow(row: seq<bool>, y: int, m: int): seq<Cell>
    requires 0 <= m <= |row|
  {
    if m == 0 then [] else AliveRow(row, y, m - 1) + (if row[m - 1] then [Cell(m - 1, y)] else [])
  }

  /** Rows 0 .. n - 1 of the live cells, in row-major order. */
  function AliveCells(b: Board, h: int, w: int, n: int): seq<Cell>
    requires IsBoard(b, h, w) && 0 <= n <= h
  {
    if n == 0 then [] else AliveCells(b, h, w, n - 1) + AliveRow(b[n - 1], n - 1, w)
  }

  lemma {:induction false} AliveRowIsDiff(dead: seq<bool>, row: seq<bool>, y: int, m: int)
    requires |dead| == |row| && 0 <= m <= |row|
    requires forall k :: 0 <= k < |dead| ==> !dead[k]
    ensures AliveRow(row, y, m) == DiffRow(dead, row, y, m)
  {
    if m > 0 {
      AliveRowIsDiff(dead, row, y, m - 1);
    }
  }

  /** The live cells of a board are the cells that differ from the all-dead
      board: at turn 0 the flips sent are exactly the initially live cells. */
  lemma {:induction false} AliveCellsAreFirstFlips(b: Board, h: int, w: int, n: int)
    requires IsBoard(b, h, w) && 0 <= n <= h
    ensures AliveCells(b, h, w, n) == DiffCells(Dead(h, w), b, h, w, n)
  {
    if n > 0 {
      AliveCellsAreFirstFlips(b, h, w, n - 1);
      AliveRowIsDiff(Dead(h, w)[n - 1], b[n - 1], n - 1, w);
    }
  }

  /** The final report lists each live cell exactly once, in row-major order. */
  lemma AliveCellsExact(b: Board, h: int, w: int)
    requires IsBoard(b, h, w)
    ensures forall c :: c in AliveCells(b, h, w, h) <==> 0 <= c.y < h && 0 <= c.x < w && b[c.y][c.x]
    ensures RowMajor(AliveCells(b, h, w, h))
  {
    AliveCellsAreFirstFlips(b, h, w, h);
    DiffCellsExact(Dead(h, w), b, h, w, h);
  }

  lemma {:induction false} AliveRowLength(row: seq<bool>, y: int, m: int)
    requires 0 <= m <= |row|
    ensures |AliveRow(row, y, m)| == RowPopulation(row[..m])
  {
    if m > 0 {
      AliveRowLength(row, y, m - 1);
      assert row[..m][..m - 1] == row[..m - 1];
    }
  }

  /** The final report has as many cells as the board has live cells. */
  lemma {:induction false} AliveCellsLength(b: Board, h: int, w: int, n: int)
    requires IsBoard(b, h, w) && 0 <= n <= h
    ensures |AliveCells(b, h, w, n)| == Population(b[..n])
  {
    if n > 0 {
      AliveCellsLength(b, h, w, n - 1);
      AliveRowLength(b[n - 1], n - 1, w);
      assert b[..n][..n - 1] == b[..n - 1];
      assert b[n - 1][..w] == b[n - 1];
    }
  }
}

=== FILE: life.dfy ===
/** The Game-of-Life rule on a toroidal board, as pure functions.
    A board is a sequence of rows; b[r][c] is the cell in row r, column c. */
module Life {
  import opened Arith

  type Board = seq<seq<bool>>

  /** b has h rows of w columns. */
  predicate IsBoard(b: Board, h: int, w: int)
  {
    h >= 0 && w >= 0 && |b| == h && forall r :: 0 <= r < h ==> |b[r]| == w
  }

  /** The all-dead board that a freshly allocated grid holds. */
  function Dead(h: nat, w: nat): (b: Board)
    ensures IsBoard(b, h, w)
    ensures forall r, c :: 0 <= r < h && 0 <= c < w ==> !b[r][c]
  {
    seq(h, _ => seq(w, _ => false))
  }

  /** Wrap-around of an index by one period, for an index at most one period
      outside [0, n): the index moved back into [0, n). WrapIsRemainder shows
      that it is the remainder (i + n) % n the grid reads with. */
  function Wrap(i: int, n: int): (k: int)
    requires n > 0 && -n <= i < 2 * n
    ensures 0 <= k < n
  {
    if i < 0 then i + n else if i < n then i else i - n
  }

  /** In range the wrap is the identity, one period below or above it moves by
      one period, and everywhere on its domain it is (i + n) % n; i + n is never
      negative there, so a truncating remainder and Dafny's Euclidean one agree. */
  lemma WrapIsRemainder(i: int, n: int)
    requires n > 0 && -n <= i < 2 * n
    ensures 0 <= i < n ==> Wrap(i, n) == i
    ensures i < 0 ==> Wrap(i, n) == i + n
    ensures i >= n ==> Wrap(i, n) == i - n
    ensures Wrap(i, n) == (i + n) % n
  {
    var k := Wrap(i, n);
    var q := if i < 0 then 0 else if i < n then 1 else 2;
    assert i + n == q * n + k;
    DivModUnique(i + n, n, q, k);
  }

  /** Wherever the wrap is defined above the lower bound, it is the remainder. */
  lemma WrapAgrees(i: int, n: int)
    requires n > 0 && i >= -n
    ensures i < 2 * n ==> Wrap(i, n) == (i + n) % n
  {
    if i < 2 * n {
      WrapIsRemainder(i, n);
    }
  }

  /** The toroidal read: row r wraps by the height, column c by the width. */
  function AliveAt(b: Board, h: int, w: int, r: int, c: int): bool
    requires IsBoard(b, h, w) && h > 0 && w > 0 && -h <= r < 2 * h && -w <= c < 2 * w
  {
    b[Wrap(r, h)][Wrap(c, w)]
  }

  function Bit(v: bool): nat
  {
    if v then 1 else 0
  }

  /** Live cells among the eight offsets around (r, c). The offset (0, 0) is
      skipped; on a torus smaller than 3 by 3 other offsets wrap onto the cell
      itself, which is then counted (see NeighboursIgnoreSelf). */
  function Neighbours(b: Board, h: int, w: int, r: int, c: int): (n: nat)
    requires IsBoard(b, h, w) && 0 <= r < h && 0 <= c < w
    ensures n <= 8
  {
    Bit(AliveAt(b, h, w, r - 1, c - 1)) + Bit(AliveAt(b, h, w, r - 1, c)) + Bit(AliveAt(b, h, w, r - 1, c + 1)) +
    Bit(AliveAt(b, h, w, r, c - 1))                                         + Bit(AliveAt(b, h, w, r, c + 1)) +
    Bit(AliveAt(b, h, w, r + 1, c - 1)) + Bit(AliveAt(b, h, w, r + 1, c)) + Bit(AliveAt(b, h, w, r + 1, c + 1))
  }

  /** Birth with exactly three live neighbours, survival with two or three:
      fewer than two or more than three live neighbours kill or keep dead. */
  function Rule(alive: bool, n: nat): (next: bool)
    ensures n < 2 || n > 3 ==> !next
    ensures n == 3 ==> next
    ensures n == 2 ==> next == alive
  {
    n == 3 || (n == 2 && alive)
  }

  /** Next state of one cell. */
  function NextCell(b: Board, h: int, w: int, r: int, c: int): bool
    requires IsBoard(b, h, w) && 0 <= r < h && 0 <= c < w
  {
    Rule(b[r][c], Neighbours(b, h, w, r, c))
  }

  /** Rows 0 .. m - 1 of the next board, each cell computed from b only. */
  function StepRows(b: Board, h: int, w: int, m: int): (n: Board)
    requires IsBoard(b, h, w) && 0 <= m <= h
    ensures IsBoard(n, m, w)
  {
    if m == 0 then []
    else StepRows(b, h, w, m - 1) + [seq(w, c requires 0 <= c < w => NextCell(b, h, w, m - 1, c))]
  }

  /** One synchronous turn: every cell is computed from the previous board only
      (StepCells). */
  function Step(b: Board, h: int, w: int): (n: Board)
    requires IsBoard(b, h, w)
    ensures IsBoard(n, h, w)
  {
    StepRows(b, h, w, h)
  }

  lemma {:induction false} StepRowsAt(b: Board, h: int, w: int, m: int, r: int, c: int)
    requires IsBoard(b, h, w) && 0 <= r < m <= h && 0 <= c < w
    ensures StepRows(b, h, w, m)[r][c] == NextCell(b, h, w, r, c)
  {
    if r < m - 1 {
      StepRowsAt(b, h, w, m - 1, r, c);
    }
  }

  /** Every cell of the next board is the rule applied to the cell and its
      neighbours on the previous board. */
  lemma StepCells(b: Board, h: int, w: int)
    requires IsBoard(b, h, w)
    ensures forall r, c :: 0 <= r < h && 0 <= c < w ==> Step(b, h, w)[r][c] == NextCell(b, h, w, r, c)
  {
    forall r, c | 0 <= r < h && 0 <= c < w
      ensures Step(b, h, w)[r][c] == NextCell(b, h, w, r, c)
    {
      StepRowsAt(b, h, w, h, r, c);
    }
  }

  /** n turns. */
  function Iterate(b: Board, h: int, w: int, n: nat): (r: Board)
    requires IsBoard(b, h, w)
    ensures IsBoard(r, h, w)
  {
    if n == 0 then b else Step(Iterate(b, h, w, n - 1), h, w)
  }

  lemma IterateNext(b: Board, h: int, w: int, n: nat)
    requires IsBoard(b, h, w)
    ensures Iterate(b, h, w, n + 1) == Step(Iterate(b, h, w, n), h, w)
  {
  }

  /** One more turn after n turns is n + 1 turns, counting from the stepped board. */
  lemma {:induction false} IterateShift(b: Board, h: int, w: int, n: nat)
    requires IsBoard(b, h, w)
    ensures Iterate(Step(b, h, w), h, w, n) == Iterate(b, h, w, n + 1)
  {
    if n > 0 {
      IterateShift(b, h, w, n - 1);
    }
  }

  // ---------------------------------------------------------------------------
  // Small tori.

  /** The cell itself never contributes to its own count once the board is at
      least 3 by 3 (on a smaller torus a neighbour wraps onto the cell). */
  lemma NeighboursIgnoreSelf(b: Board, h: int, w: int, r: int, c: int, v: bool)
    requires IsBoard(b, h, w) && 0 <= r < h && 0 <= c < w && h >= 3 && w >= 3
    ensures IsBoard(b[r := b[r][c := v]], h, w)
    ensures Neighbours(b[r := b[r][c := v]], h, w, r, c) == Neighbours(b, h, w, r, c)
  {
    WrapMoves(r, -1, h);
    WrapMoves(r, 1, h);
    WrapMoves(c, -1, w);
    WrapMoves(c, 1, w);
  }

  /** A step of -1, 0 or +1 on a torus of period at least 3 lands elsewhere unless it is 0. */
  lemma WrapMoves(i: int, d: int, n: int)
    requires 0 <= i < n && n >= 3 && -1 <= d <= 1
    ensures Wrap(i + d, n) == i <==> d == 0
  {
  }

  /** The early exit at zero live neighbours gives the same answer as the rule. */
  lemma RuleAtZero(alive: bool)
    ensures !Rule(alive, 0)
  {
  }

  // ---------------------------------------------------------------------------
  // Population: the number of live cells, counted row by row.

  function RowPopulation(row: seq<bool>): (n: nat)
    ensures n <= |row|
  {
    if |row| == 0 then 0 else RowPopulation(row[..|row| - 1]) + Bit(row[|row| - 1])
  }

  function Population(b: Board): nat
  {
    if |b| == 0 then 0 else Population(b[..|b| - 1]) + RowPopulation(b[|b| - 1])
  }

  /** A board of h rows of w columns has between 0 and h * w live cells. */
  lemma {:induction false} PopulationBound(b: Board, h: int, w: int)
    requires IsBoard(b, h, w)
    ensures 0 <= Population(b) <= h * w
  {
    if h > 0 {
      var p := b[..h - 1];
      assert IsBoard(p, h - 1, w);
      PopulationBound(p, h - 1, w);
      assert (h - 1) * w + w == h * w;
    }
  }

  /** The all-dead board has no live cell. */
  lemma {:induction false} DeadPopulation(h: nat, w: nat)
    ensures Population(Dead(h, w)) == 0
  {
    if h > 0 {
      assert Dead(h, w)[..h - 1] == Dead(h - 1, w);
      DeadPopulation(h - 1, w);
      DeadRowPopulation(w);
    }
  }

  lemma {:induction false} DeadRowPopulation(w: nat)
    ensures RowPopulation(seq(w, _ => false)) == 0
  {
    if w > 0 {
      assert seq(w, _ => false)[..w - 1] == seq(w - 1, _ => false);
      DeadRowPopulation(w - 1);
    }
  }

  // ---------------------------------------------------------------------------
  // The source's alive count reads each cell through the toroidal accessor
  // with the wrap periods swapped: the row index is wrapped by the width and
  // the column index by the height. This is that count, as written.

  function SwappedRowCount(b: Board, h: int, w: int, i: int, m: int): nat
    requires IsBoard(b, h, w) && 0 <= i < h && 0 <= m <= w
  {
    if m == 0 then 0
    else
      SwappedRowCount(b, h, w, i, m - 1) +
      (SwappedInRange(i, m - 1, h, w); Bit(b[(i + w) % w][(m - 1 + h) % h]))
  }

  /** The swapped read never leaves the board for an in-range cell: a wrapped
      index is the index itself when the period is larger, and below the
      other period otherwise. */
  lemma SwappedInRange(i: int, j: int, h: int, w: int)
    requires 0 <= i < h && 0 <= j < w
    ensures 0 <= (i + w) % w < h && 0 <= (j + h) % h < w
  {
    if i < w {
      DivModUnique(i + w, w, 1, i);
    }
    if j < h {
      DivModUnique(j + h, h, 1, j);
    }
  }

  function SwappedAliveCount(b: Board, h: int, w: int, n: int): nat
    requires IsBoard(b, h, w) && 0 <= n <= h
  {
    if n == 0 then 0 else SwappedAliveCount(b, h, w, n - 1) + SwappedRowCount(b, h, w, n - 1, w)
  }

  /** On a 2-row, 1-column board with only the top cell alive, the swapped
      count reads the top cell twice and reports 2 live cells instead of 1. */
  lemma SwappedAliveCountCounterexample()
    ensures IsBoard([[true], [false]], 2, 1)
    ensures Population([[true], [false]]) == 1
    ensures SwappedAliveCount([[true], [false]], 2, 1, 2) == 2
  {
    var b: Board := [[true], [false]];
    assert b[..1] == [[true]];
    assert [[true]][..0] == [];
    assert [true][..0] == [];
    assert [false][..0] == [];
  }

  /** On a square board the swapped count is the population. */
  lemma {:induction false} SwappedAliveCountSquare(b: Board, n: int, k: int)
    requires IsBoard(b, n, n) && 0 <= k <= n
    ensures SwappedAliveCount(b, n, n, k) == Population(b[..k])
  {
    if k > 0 {
      SwappedAliveCountSquare(b, n, k - 1);
      assert b[..k][..k - 1] == b[..k - 1];
      SwappedRowSquare(b, n, k - 1, n);
      assert b[k - 1][..n] == b[k - 1];
    }
  }

  lemma {:induction false} SwappedRowSquare(b: Board, n: int, i: int, m: int)
    requires IsBoard(b, n, n) && 0 <= i < n && 0 <= m <= n
    ensures SwappedRowCount(b, n, n, i, m) == RowPopulation(b[i][..m])
  {
    if m > 0 {
      SwappedRowSquare(b, n, i, m - 1);
      assert b[i][..m][..m - 1] == b[i][..m - 1];
      WrapIsRemainder(i, n);
      WrapIsRemainder(m - 1, n);
    }
  }
}

=== FILE: partition.dfy ===
/** How one turn's columns are split among the workers: each of `threads`
    workers gets `width / threads` consecutive columns, and the last one also
    takes whatever remains up to the last column. */
module Partition {
  import opened Arith

  /** Columns per worker (both operands are non-negative, so the quotient truncates as in the source). */
  function Length(width: int, threads: int): nat
    requires width >= 0 && threads >= 1
  {
    width / threads
  }

  /** First column of worker i. */
  function Start(i: int, width: int, threads: int): int
    requires width >= 0 && threads >= 1
  {
    i * Length(width, threads)
  }

  /** Last column of worker i (inclusive); below Start when the range is empty. */
  function End(i: int, width: int, threads: int): int
    requires width >= 0 && threads >= 1
  {
    if i == threads - 1 then width - 1 else Start(i, width, threads) + Length(width, threads) - 1
  }

  predicate InRange(i: int, c: int, width: int, threads: int)
    requires width >= 0 && threads >= 1
  {
    Start(i, width, threads) <= c <= End(i, width, threads)
  }

  /** The worker that computes column c, stated independently of the ranges:
      the quotient c / Length, capped at the last worker. */
  function Owner(c: int, width: int, threads: int): (i: nat)
    requires width >= 0 && threads >= 1 && 0 <= c < width
    ensures i < threads
  {
    var l := Length(width, threads);
    if l == 0 || c / l >= threads - 1 then threads - 1 else c / l
  }

  /** Worker i's loop runs from a non-negative start to an end below width,
      and ends at most one column before its start when it is empty. */
  lemma RangeBounds(i: int, width: int, threads: int)
    requires width >= 0 && threads >= 1 && 0 <= i < threads
    ensures 0 <= Start(i, width, threads) <= End(i, width, threads) + 1
    ensures End(i, width, threads) < width
  {
    var l := Length(width, threads);
    assert width == threads * l + width % threads;
    MulMono(0, i, l);
    MulMono(i + 1, threads, l);
    assert (i + 1) * l == i * l + l;
    assert threads * l == l * threads;
  }

  /** Every worker range lies inside [0, width). */
  lemma {:induction false} RangeInside(i: int, c: int, width: int, threads: int)
    requires width >= 0 && threads >= 1 && 0 <= i < threads
    requires InRange(i, c, width, threads)
    ensures 0 <= c < width
  {
    var l := Length(width, threads);
    assert width == threads * l + width % threads;
    MulMono(0, i, l);
    if i < threads - 1 {
      MulMono(i + 1, threads, l);
      assert (i + 1) * l == i * l + l;
      assert threads * l == l * threads;
    }
  }

  /** Column c lies in worker i's range exactly when i is its owner, so the
      ranges cover [0, width) and no two of them share a column, including
      when there are more workers than columns and the early ranges are empty. */
  lemma {:induction false} OwnerExact(i: int, c: int, width: int, threads: int)
    requires width >= 0 && threads >= 1 && 0 <= i < threads && 0 <= c < width
    ensures InRange(i, c, width, threads) <==> i == Owner(c, width, threads)
  {
    var l := Length(width, threads);
    if l > 0 {
      DivBound(c, l, i);
      DivBound(c, l, i + 1);
      assert (i + 1) * l == i * l + l;
    }
  }

  /** The ranges are pairwise disjoint. */
  lemma Disjoint(i: int, j: int, c: int, width: int, threads: int)
    requires width >= 0 && threads >= 1 && 0 <= i < threads && 0 <= j < threads
    requires InRange(i, c, width, threads) && InRange(j, c, width, threads)
    ensures i == j
  {
    RangeInside(i, c, width, threads);
    OwnerExact(i, c, width, threads);
    OwnerExact(j, c, width, threads);
  }

  /** The ranges cover every column. */
  lemma Covered(c: int, width: int, threads: int)
    requires width >= 0 && threads >= 1 && 0 <= c < width
    ensures exists i :: 0 <= i < threads && InRange(i, c, width, threads)
  {
    var i := Owner(c, width, threads);
    OwnerExact(i, c, width, threads);
  }

  /** Ten columns on three workers give the ranges 0..2, 3..5 and 6..9. */
  lemma TenOnThree()
    ensures Start(0, 10, 3) == 0 && End(0, 10, 3) == 2
    ensures Start(1, 10, 3) == 3 && End(1, 10, 3) == 5
    ensures Start(2, 10, 3) == 6 && End(2, 10, 3) == 9
  {
  }
}

=== FILE: pgm.dfy ===
/** The image format the distributor exchanges with the I/O goroutine: one
    byte per cell in row-major order, 255 for a live cell and 0 for a dead one,
    and the file names derived from the board size and the turn. */
module Pgm {
  import opened Life
  import Arith

  newtype byte = x: int | 0 <= x < 256

  /** A byte read from the image: only 255 is a live cell. */
  function DecodeCell(v: byte): bool
  {
    v == 255
  }

  /** A byte written to the image. */
  function EncodeCell(alive: bool): (v: byte)
    ensures DecodeCell(v) == alive
    ensures v == 0 || v == 255
  {
    if alive then 255 else 0
  }

  function EncodeRow(row: seq<bool>): (s: seq<byte>)
    ensures |s| == |row|
  {
    seq(|row|, j requires 0 <= j < |row| => EncodeCell(row[j]))
  }

  /** The bytes of a board, row after row. */
  function Encode(b: Board): seq<byte>
  {
    if |b| == 0 then [] else Encode(b[..|b| - 1]) + EncodeRow(b[|b| - 1])
  }

  /** Writing one more cell of a row appends its byte. */
  lemma EncodeRowSnoc(row: seq<bool>, j: int)
    requires 0 <= j < |row|
    ensures EncodeRow(row[..j + 1]) == EncodeRow(row[..j]) + [EncodeCell(row[j])]
  {
    assert EncodeRow(row[..j + 1])[..j] == EncodeRow(row[..j]);
  }

  /** Writing one more row appends the row's bytes. */
  lemma EncodeSnoc(b: Board, i: int)
    requires 0 <= i < |b|
    ensures Encode(b[..i + 1]) == Encode(b[..i]) + EncodeRow(b[i])
  {
    assert b[..i + 1][..i] == b[..i];
  }

  /** Cell (i, j) of an h by w board sits at offset i * w + j of its image. */
  lemma IndexBound(i: int, j: int, h: int, w: int)
    requires 0 <= i < h && 0 <= j < w
    ensures 0 <= i * w + j < h * w
  {
    assert (i + 1) * w == i * w + w;
    Arith.MulMono(i + 1, h, w);
  }

  /** The board read from h * w bytes in row-major order. */
  function Decode(bytes: seq<byte>, h: int, w: int): (b: Board)
    requires h >= 0 && w >= 0 && |bytes| == h * w
    ensures IsBoard(b, h, w)
  {
    seq(h, i requires 0 <= i < h =>
      seq(w, j requires 0 <= j < w => (IndexBound(i, j, h, w); DecodeCell(bytes[i * w + j]))))
  }

  /** An h by w board has an image of h * w bytes. */
  lemma {:induction false} EncodeLength(b: Board, h: int, w: int)
    requires IsBoard(b, h, w)
    ensures |Encode(b)| == h * w
  {
    if h > 0 {
      EncodeLength(b[..h - 1], h - 1, w);
      assert (h - 1) * w + w == h * w;
    }
  }

  /** Cell (i, j) is written at offset i * w + j. */
  lemma {:induction false} EncodeAt(b: Board, h: int, w: int, i: int, j: int)
    requires IsBoard(b, h, w) && 0 <= i < h && 0 <= j < w
    ensures |Encode(b)| == h * w && 0 <= i * w + j < h * w
    ensures Encode(b)[i * w + j] == EncodeCell(b[i][j])
  {
    var p := b[..h - 1];
    EncodeLength(b, h, w);
    EncodeLength(p, h - 1, w);
    IndexBound(i, j, h, w);
    if i < h - 1 {
      EncodeAt(p, h - 1, w, i, j);
    } else {
      assert i * w + j == |Encode(p)| + j;
    }
  }

  /** Encode lays the cells out row-major: h * w bytes, cell (i, j) at i * w + j. */
  lemma EncodeLayout(b: Board, h: int, w: int)
    requires IsBoard(b, h, w)
    ensures |Encode(b)| == h * w
    ensures forall i, j :: 0 <= i < h && 0 <= j < w ==> Encode(b)[i * w + j] == EncodeCell(b[i][j])
  {
    EncodeLength(b, h, w);
    forall i, j | 0 <= i < h && 0 <= j < w
      ensures Encode(b)[i * w + j] == EncodeCell(b[i][j])
    {
      EncodeAt(b, h, w, i, j);
    }
  }

  /** Reading back what was written gives the board. */
  lemma DecodeEncode(b: Board, h: int, w: int)
    requires IsBoard(b, h, w)
    ensures |Encode(b)| == h * w
    ensures Decode(Encode(b), h, w) == b
  {
    EncodeLayout(b, h, w);
    var d := Decode(Encode(b), h, w);
    forall i | 0 <= i < h
      ensures d[i] == b[i]
    {
      assert forall j :: 0 <= j < w ==> d[i][j] == b[i][j];
    }
  }

  /** Writing what was read gives the bytes back, when every byte is 0 or 255. */
  lemma EncodeDecode(bytes: seq<byte>, h: int, w: int)
    requires h >= 0 && w >= 0 && |bytes| == h * w
    requires forall k :: 0 <= k < |bytes| ==> bytes[k] == 0 || bytes[k] == 255
    ensures Encode(Decode(bytes, h, w)) == bytes
  {
    var b := Decode(bytes, h, w);
    EncodeLength(b, h, w);
    forall k | 0 <= k < |bytes|
      ensures Encode(b)[k] == bytes[k]
    {
      var i, j := RowMajorSplit(k, h, w);
      EncodeAt(b, h, w, i, j);
      assert b[i][j] == DecodeCell(bytes[i * w + j]);
    }
  }

  /** Every offset below h * w is i * w + j for a cell (i, j) of the board. */
  lemma RowMajorSplit(k: int, h: int, w: int) returns (i: int, j: int)
    requires h >= 0 && w >= 0 && 0 <= k < h * w
    ensures 0 <= i < h && 0 <= j < w && k == i * w + j
  {
    assert w > 0;
    i, j := k / w, k % w;
    assert k == i * w + j;
    Arith.DivBound(k, w, h);
    assert h * w == w * h;
  }

  // ---------------------------------------------------------------------------
  // The snapshot as the source reads the board: through the wrapped accessor,
  // whose first (row) index is wrapped by the width and whose second (column)
  // index is wrapped by the height.

  function SwappedEncodeRow(b: Board, h: int, w: int, i: int): (s: seq<byte>)
    requires IsBoard(b, h, w) && 0 <= i < h
    ensures |s| == w
  {
    seq(w, j requires 0 <= j < w => (SwappedInRange(i, j, h, w); EncodeCell(b[(i + w) % w][(j + h) % h])))
  }

  function SwappedEncode(b: Board, h: int, w: int, n: int): seq<byte>
    requires IsBoard(b, h, w) && 0 <= n <= h
  {
    if n == 0 then [] else SwappedEncode(b, h, w, n - 1) + SwappedEncodeRow(b, h, w, n - 1)
  }

  /** On a 2-row, 1-column board with only the top cell alive, the snapshot
      read through the accessor shows the top cell twice, so both bytes are
      255 where the board's image is 255 then 0. */
  lemma SwappedEncodeCounterexample()
    ensures IsBoard([[true], [false]], 2, 1)
    ensures Encode([[true], [false]]) == [255, 0]
    ensures SwappedEncode([[true], [false]], 2, 1, 2) == [255, 255]
  {
    var b: Board := [[true], [false]];
    assert b[..1] == [[true]];
    assert [[true]][..0] == [];
    assert SwappedEncodeRow(b, 2, 1, 0) == [255];
    assert SwappedEncodeRow(b, 2, 1, 1) == [255];
  }

  /** On a square board the snapshot read through the accessor is the board's image. */
  lemma {:induction false} SwappedEncodeSquare(b: Board, n: int, k: int)
    requires IsBoard(b, n, n) && 0 <= k <= n
    ensures SwappedEncode(b, n, n, k) == Encode(b[..k])
  {
    if k > 0 {
      SwappedEncodeSquare(b, n, k - 1);
      assert b[..k][..k - 1] == b[..k - 1];
      SwappedEncodeRowSquare(b, n, k - 1);
    }
  }

  lemma SwappedEncodeRowSquare(b: Board, n: int, i: int)
    requires IsBoard(b, n, n) && 0 <= i < n
    ensures SwappedEncodeRow(b, n, n, i) == EncodeRow(b[i])
  {
    WrapIsRemainder(i, n);
    forall j | 0 <= j < n
      ensures SwappedEncodeRow(b, n, n, i)[j] == EncodeRow(b[i])[j]
    {
      WrapIsRemainder(j, n);
    }
  }

  // ---------------------------------------------------------------------------
  // Decimal formatting of integers and the image names built from it.

  function DigitChar(d: int): char
    requires 0 <= d < 10
  {
    (48 + d) as char
  }

  predicate IsDigit(ch: char)
  {
    '0' <= ch <= '9'
  }

  /** Decimal digits of n, most significant first, without leading zeros. */
  function NatString(n: nat): (s: string)
    ensures |s| > 0 && forall k :: 0 <= k < |s| ==> IsDigit(s[k])
    ensures |s| > 1 ==> s[0] != '0'
  {
    if n < 10 then [DigitChar(n)] else NatString(n / 10) + [DigitChar(n % 10)]
  }

  /** Decimal text of an integer, with a leading '-' when it is negative. */
  function Itoa(n: int): string
  {
    if n < 0 then "-" + NatString(-n) else NatString(n)
  }

  /** The value of a string of digits. */
  function DigitsValue(s: string): int
  {
    if |s| == 0 then 0 else DigitsValue(s[..|s| - 1]) * 10 + (s[|s| - 1] as int - 48)
  }

  /** The value of decimal text with an optional leading '-'. */
  function Atoi(s: string): int
  {
    if |s| > 0 && s[0] == '-' then -DigitsValue(s[1..]) else DigitsValue(s)
  }

  lemma {:induction false} DigitsNatString(n: nat)
    ensures DigitsValue(NatString(n)) == n
  {
    if n >= 10 {
      DigitsNatString(n / 10);
      var s := NatString(n / 10) + [DigitChar(n % 10)];
      assert s[..|s| - 1] == NatString(n / 10);
    }
  }

  /** Parsing the decimal text of n gives n back. */
  lemma AtoiItoa(n: int)
    ensures Atoi(Itoa(n)) == n
  {
    if n < 0 {
      assert ("-" + NatString(-n))[1..] == NatString(-n);
      DigitsNatString(-n);
    } else {
      DigitsNatString(n);
    }
  }

  /** Decimal text never contains the separator 'x'. */
  lemma ItoaNoX(n: int)
    ensures 'x' !in Itoa(n)
  {
    var s := NatString(if n < 0 then -n else n);
    assert forall k :: 0 <= k < |s| ==> s[k] != 'x';
  }

  /** Name of the input image: "<height>x<width>". */
  function ImageName1(height: int, width: int): string
  {
    Itoa(height) + "x" + Itoa(width)
  }

  /** Name of a snapshot: "<height>x<width>x<turn>". */
  function ImageName2(height: int, width: int, turn: int): string
  {
    Itoa(height) + "x" + Itoa(width) + "x" + Itoa(turn)
  }

  /** Position of the first 'x' in s, or |s| when there is none. */
  function FirstX(s: string): (k: nat)
    ensures k <= |s|
  {
    if |s| == 0 || s[0] == 'x' then 0 else 1 + FirstX(s[1..])
  }

  lemma {:induction false} FirstXAfter(a: string, b: string)
    requires 'x' !in a
    ensures FirstX(a + "x" + b) == |a|
  {
    if |a| > 0 {
      assert (a + "x" + b)[1..] == a[1..] + "x" + b;
      FirstXAfter(a[1..], b);
    }
  }

  /** Two strings free of 'x' joined by an 'x' can be split back apart. */
  lemma SplitAtX(a: string, b: string, a': string, b': string)
    requires 'x' !in a && 'x' !in a'
    requires a + "x" + b == a' + "x" + b'
    ensures a == a' && b == b'
  {
    var s := a + "x" + b;
    FirstXAfter(a, b);
    FirstXAfter(a', b');
    assert a == s[..|a|] == a';
    assert b == s[|a| + 1..] == b';
  }

  /** A snapshot name determines the height, the width and the turn, so two
      snapshots of different turns never share a name. */
  lemma ImageName2Injective(h: int, w: int, t: int, h': int, w': int, t': int)
    requires ImageName2(h, w, t) == ImageName2(h', w', t')
    ensures h == h' && w == w' && t == t'
  {
    ItoaNoX(h); ItoaNoX(h'); ItoaNoX(w); ItoaNoX(w');
    Regroup(Itoa(h), Itoa(w), Itoa(t));
    Regroup(Itoa(h'), Itoa(w'), Itoa(t'));
    SplitAtX(Itoa(h), Itoa(w) + "x" + Itoa(t), Itoa(h'), Itoa(w') + "x" + Itoa(t'));
    SplitAtX(Itoa(w), Itoa(t), Itoa(w'), Itoa(t'));
    AtoiItoa(h); AtoiItoa(h'); AtoiItoa(w); AtoiItoa(w'); AtoiItoa(t); AtoiItoa(t');
  }

  lemma Regroup(a: string, b: string, c: string)
    ensures a + "x" + b + "x" + c == a + "x" + (b + "x" + c)
  {
  }

  /** A snapshot name extends the input name with "x<turn>". */
  lemma ImageName2Extends(h: int, w: int, t: int)
    ensures ImageName2(h, w, t) == ImageName1(h, w) + "x" + Itoa(t)
    ensures ImageName2(h, w, t)[..|ImageName1(h, w)|] == ImageName1(h, w)
  {
  }
}
